=== FILE: README.md ===
# Espresso dial-in helper — a Dafny model

This project models the deterministic core of an espresso dial-in web
helper: the browser page (`app.js`) and its recipe endpoint
(`api/recipes.js`).

The page gives dial-in guidance for a shot. It reads dose, yield and time
from a form, clamps them, and compares the brew ratio (yield / dose) and the
shot time with a target of 1:2.0 ± 0.2 and a 25–30 s window. From that it
builds four guidance lines and one "next adjustment" directive.

The page also runs a recipe screen:

- it derives the equipment values sent with a request from a machine-profile
  catalog and the form's radios;
- it filters the drink list when the setup has no milk;
- it derives the summary numbers of a returned recipe (dose, yield, ratio,
  shot time);
- it classifies each recipe step for its icon;
- it steps through the recipe in a brewing overlay.

The endpoint checks the request, builds the prompt for the language model,
calls it, and answers with the recipe or with an error status.

Modules, one per file:

- `JsValues`: optional values, the results of `Number(...)`, JSON
  documents, truthiness, drinks.
- `Text`: digit and white-space scanning, number rendering (`toFixed` and
  `${x}`), `toLowerCase` and `includes`.
- `Form`: `clamp` and `getValues`.
- `Guidance`: the advice rules, and `buildGuidance` as a method that pushes
  lines one at a time.
- `BeanType`: the "House blend (Ng basket)" text and
  `parseDoseFromBeanType`.
- `Equipment`: the catalog, `getRecipeValues` and the no-milk filter.
- `StepIcons`: `getStepIconMarkup`, with icons as an enum.
- `RecipeSummary`: the summary arithmetic of `renderRecipe` and its
  shot-time regular expression.
- `Brewing`: the brewing overlay, as a class with `steps`, `index` and
  `active` fields.
- `Screen`: the drink list and the machine picker (including
  `machineModelTouched`) as classes, and `updateProgress` as a loop over an
  array of dots.
- `RecipePrompt`: `buildPrompt`.
- `RecipeHandler`: the endpoint, as a pure function from a request, the
  credential, the upstream reply and a `JSON.parse` oracle to the call made
  and the response.

Numbers are exact reals, so `yield / dose` is exact rational arithmetic.
Regular expressions are modelled by greedy scanners. Each scanner's comment
explains why backtracking cannot change the match.

The endpoint's recipe check is `!recipe.steps`, which is false for `[]`
because an empty array is truthy. So a named recipe with an empty steps
array is accepted; see `RecipeHandler.EmptyStepsAccepted`.

## Model

| member | source | states |
|---|---|---|
| JsValues.Truthy | api/recipes.js:124 | a truthy value is present and not null; every array and every object, even an empty one, is truthy |
| JsValues.Property | api/recipes.js:124 | for the keys `steps` and `name`, a property read yields a value exactly when the value is an object that has that key |
| Text.Span | app.js:132 | the greedy run of a character class: every character in it is in the class, and the next one is not |
| Text.NatText | app.js:251 | a natural number's decimal text has at least one digit, no leading zero, and reads back as the number |
| Text.ToFixed | app.js:118-121 | `toFixed` of a non-negative number starts with a digit |
| Text.DecimalText | api/recipes.js:24-26 | `${x}` starts with a digit for x ≥ 0, and with a minus sign then a digit for x < 0 |
| Text.DecimalTextOfNat | app.js:318 | a whole number is interpolated as its plain digits |
| Text.Lower | app.js:200 | lower-casing keeps the length and maps every character on its own |
| Form.Clamp | app.js:128 | over a non-empty range the result is in the range; it is the value when the value is in range, else the nearer end; an empty range gives the lower bound |
| Form.ClampField | app.js:215-218 | over a non-empty range the result is in the range; a non-zero finite number is clamped; NaN and 0 clamp the fallback instead; +Infinity gives the upper bound and -Infinity the lower |
| Form.GetValues | app.js:213-221 | basket and dose land in [10, 24], yield in [20, 60], time in [10, 60], so the ratio's divisor is at least 10; NaN or 0 becomes the default 18/18/36/28; an in-range number is kept for each of basket, dose, yield and time; text fields pass through |
| Guidance.GrindDirection | app.js:261-269 | "finer" iff time < 25 or ratio > 2.2; otherwise "coarser" iff time > 30 or ratio < 1.8; "looks close" iff both are in the closed bands |
| Guidance.GetGrindGuidance | app.js:261-269 | the "finer" line when time < 25 or ratio > 2.2; else the "coarser" line when time > 30 or ratio < 1.8; the "looks close" line when both are in band |
| Guidance.DoseYieldDecision | app.js:271-286 | a ratio below 1.8 or above 2.2 decides the advice at any time; "sharp"/"bitter" iff the ratio is in band and the time is short/long; "balanced" iff both are in band |
| Guidance.GetDoseYieldGuidance | app.js:271-286 | the "increase yield" line below ratio 1.8, the "reduce yield" line above 2.2, "sharp"/"bitter" for an in-band ratio with a short/long time, "balanced" when both are in band |
| Guidance.NextDirection | app.js:288-296 | the same three iff conditions as the grind advice |
| Guidance.GetNextAdjustment | app.js:288-296 | the "grind finer" directive when time < 25 or ratio > 2.2; else "grind coarser" when time > 30 or ratio < 1.8; "keep settings" when both are in band |
| Guidance.NextAdjustmentMatchesGrind | app.js:288-296 | for every ratio and time the next adjustment takes the grind advice's branch |
| Guidance.KeepExactlyInBand | app.js:261-296 | in-band ratio and time (25, 30, 1.8 and 2.2 included) iff "looks close", iff "balanced", iff "keep settings" |
| Guidance.FinerWinsOverCoarser | app.js:261-269 | "finer" when a short time meets a low ratio, and whenever the ratio exceeds 2.2 |
| Guidance.TargetTexts | app.js:312-318 | the target renders as "2.0" and the window as "25" and "30" |
| Guidance.BuildGuidance | app.js:298-322 | exactly four lines in order: grind advice, dose/yield advice, ratio restatement, time restatement, each for the form's values |
| Guidance.LineTextsAreTheAdvice | app.js:302-309 | the first two lines read as `getGrindGuidance` and `getDoseYieldGuidance` word them |
| Guidance.RenderGuidance | app.js:324-336 | the four lines are the grind advice, the dose/yield advice and the ratio and time restatements for the clamped form values, and the next adjustment agrees with the first line |
| Guidance.BalancedShotScenario | app.js:261-296 | dose 18, yield 36, time 28 gives "looks close", "balanced" and "keep settings" |
| Guidance.BalancedShotRestatements | app.js:311-319 | that shot's restatements read "Target ratio: 1:2.0 (current 2.00)." and "Target time: 25-30s (current 28s)." |
| Guidance.TwoToFixed | app.js:118-121 | 2 to one and two decimals is "2.0" and "2.00" |
| Guidance.FastThinShotScenario | app.js:261-296 | dose 18, yield 30, time 20 gives "finer", "increase yield" and a "finer" directive |
| BeanType.DoseMatchAt | app.js:132 | a match starts at a digit, has a `g`/`G` after it, and denotes a non-negative number |
| BeanType.DoseMatchFromDigit | app.js:132 | a match found at a digit has a `g`/`G` after it and a non-negative value |
| BeanType.FirstDoseMatch | app.js:132 | the leftmost match's number is non-negative |
| BeanType.ParseDoseFromBeanType | app.js:130-134 | an empty bean type gives null; a dose found is never negative |
| BeanType.SkipNonDigits | app.js:132 | positions without a digit never start the leftmost match |
| BeanType.DoseMatchAtRun | app.js:132 | a digit run directly followed by `g`/`G` is the leftmost match from its start, worth the digits' value |
| BeanType.HouseBlendRoundTrip | app.js:130-134 | the dose parsed from "House blend (n g basket)", as built at app.js:251, is n for every natural n written as plain digits (below 1e21 in the page) |
| BeanType.DoseNeedsDigitThenG | app.js:130-134 | a dose is found only in text with a digit and a later `g`/`G`; an empty or digit-free text gives null |
| BeanType.FirstMatchStartExists | app.js:132 | the leftmost match starts at a position where a match begins |
| BeanType.DigitThenGParses | app.js:130-134 | a digit directly followed by `g`/`G` guarantees a dose |
| BeanType.FirstMatchFrom | app.js:132 | any start before such a digit still finds a match |
| Equipment.GrinderLabel | app.js:235-248 | "built-in" is "Built-in grinder", "preground" is "Pre-ground coffee", and any other grinder kind is "Burr grinder" |
| Equipment.MilkCapability | app.js:249-250 | steam iff "steam wand", frother iff "auto milk", anything else iff "no milk" |
| Equipment.CapabilitiesOf | app.js:233 | a known machine type gets its own capabilities; any other gets those of "semi-auto" |
| Equipment.ValuesFor | app.js:228-258 | the selected model and the latte-art box are passed on; the grinder and milk come from the profile when it names them, else from the radios with "burr" and "steam" as defaults; the bean type carries the profile's non-zero basket, or 18 g without a profile; roast, grind range, freshness and water come from the radios, else "medium", "fine", "0-7" and "filtered", so none is empty |
| Equipment.ProfileOf | app.js:227 | a catalog profile has a machine type with capabilities, a grinder, a milk mode and a non-zero basket |
| Equipment.GetRecipeValues | app.js:225-259 | the model is the selected one or the generic semi-auto; a known model fixes grinder, milk, bean type and capabilities from its profile whatever the radios say; an unknown one uses the radios or the defaults and an 18 g basket; roast, grind range, freshness and water are the radios' values, else "medium", "fine", "0-7" and "filtered", so the roast the endpoint requires is never empty |
| Equipment.BeanTypeCarriesBasket | app.js:231-251 | the dose read back from the request's bean type is the profile's basket, or 18 |
| Equipment.WithoutMilkDrinks | app.js:690 | the result holds only no-milk drinks, and every no-milk drink as often as in the input |
| Equipment.AllMilkDrinksDropped | app.js:690 | a list of milk drinks only filters to nothing |
| Equipment.WithoutMilkKeepsOrder | app.js:690 | the filtered list is a subsequence of the input |
| Equipment.VisibleDrinks | app.js:688-691 | under "no milk" exactly the milk drinks are dropped; any other capability shows the list unchanged |
| StepIcons.GetStepIcon | app.js:199-211 | a step mentioning "grind" in any case gets the grind icon whatever else it mentions; the `default` icon is never returned |
| StepIcons.StepIconFollowsTable | app.js:199-211 | the icon is that of the first keyword group, in precedence order, that the lower-cased step mentions, else the cycle entry for its position |
| StepIcons.DefaultIconUnreachable | app.js:209-210 | the `default` icon is never chosen, and keyword-free steps repeat every five positions |
| RecipeSummary.SecondsMatchAt | app.js:570 | a time match starts at a digit and has an `s`/`S` after it |
| RecipeSummary.FirstSecondsIsLeftmost | app.js:570 | the scan finds the match at the leftmost position that starts one, and finds none when no position does |
| RecipeSummary.StepSeconds | app.js:570 | a step mentions a time only if it has a digit with an `s`/`S` somewhere after it |
| RecipeSummary.TimeValue | app.js:569-572 | 28 when no step mentions a time; the first step's time when it mentions one |
| RecipeSummary.TimeValueFirstMention | app.js:569-572 | the time is that of the first step that mentions one, wherever it stands |
| RecipeSummary.SummaryDose | app.js:565 | the dose is positive: the parsed dose, or 18 when none is found or it is 0 |
| RecipeSummary.EspressoOz | app.js:566 | the recipe's volume, else the drink's, else 0 |
| RecipeSummary.DeriveSummary | app.js:565-572 | the dose and time are those of `SummaryDose` and `TimeValue`; the yield is 30 g per ounce of a positive volume, otherwise twice the dose with a ratio of exactly 2; both are infinite for an infinite volume and positive whenever finite |
| RecipeSummary.HouseBlendDose | app.js:565 | a House blend bean type with an n g basket gives dose n (18 for n = 0) |
| RecipeSummary.SkipToDigits | app.js:570 | positions without a digit never start the first time match |
| RecipeSummary.RunLengths | app.js:570 | the greedy runs of a match are the digit run and the white-space run before the `s` |
| RecipeSummary.MatchAtRun | app.js:570 | digits, white space, then `s`/`S` is the leftmost match from its start, worth the digits |
| RecipeSummary.SecondsAfter | app.js:570 | text without digits, then such a run, gives that run's seconds |
| RecipeSummary.SecondsInParts | app.js:569-572 | "text + digits + spaces + s…" yields the digits' value |
| RecipeSummary.StepSecondsRoundTrip | app.js:569-572 | a step reading "… n s", "… n sec" or "… n seconds" after digit-free text yields n seconds |
| Brewing.IntClamp | app.js:128 | `clamp` on integers: in range when the range is non-empty; the value when in range; the lower bound below the range or for an empty range; the upper bound above a non-empty range |
| Brewing.PrevIndex | app.js:818 | one step back from a step after the first, 0 from the first; a valid index stays valid |
| Brewing.NextIndex | app.js:825-829 | unchanged when "Next" closes; one further otherwise; a valid index stays valid |
| Brewing.NextWalksTheList | app.js:823-831 | k presses of "Next" from step 0 reach step k without closing, for every step k of the list |
| Brewing.WalkFrom | app.js:829 | pressing "Next" k times from step i reaches step i + k before the last step |
| Brewing.BrewingMode.constructor | app.js:115-116 | no steps, index 0, overlay closed |
| Brewing.BrewingMode.LoadRecipe | app.js:586-587 | the steps are the recipe's and the index is 0 |
| Brewing.BrewingMode.Clear | app.js:680-681 | no steps and index 0 |
| Brewing.BrewingMode.Start | app.js:801-805 | the index resets to 0; the overlay opens only when there are steps, and from a closed overlay it opens exactly when the start button is enabled (app.js:612-613) |
| Brewing.BrewingMode.Prev | app.js:816-821 | the index moves back by `PrevIndex`; steps and overlay unchanged |
| Brewing.BrewingMode.Next | app.js:823-831 | on the last step it closes and keeps the index; otherwise it moves on by one |
| Brewing.BrewingMode.Close | app.js:652-657 | the overlay closes; steps and index unchanged |
| Brewing.BrewingMode.CurrentStep | app.js:622 | the step at the index, or "" |
| Brewing.ButtonsMatchMoves | app.js:636-641 | "Next" closes iff the button reads "Finish"; "Previous" does nothing iff it is disabled |
| Screen.RecipeValuesAlwaysPicked | app.js:669-673 | values from `getRecipeValues` always pass the equipment guard |
| Screen.StatusTextsDiffer | app.js:671-701 | the five drinks-status messages are pairwise different |
| Screen.LoadOutcome | app.js:683-701 | a failed load shows the error; otherwise the filtered list is shown, and "no match" iff it is empty |
| Screen.NoMatchOnlyWithoutMilk | app.js:688-696 | with milk a non-empty list is shown whole; without milk an all-milk list shows "no match" |
| Screen.DrinkList.constructor | app.js:112-113 | no drinks and no active drink |
| Screen.DrinkList.GenerateDrinks | app.js:668-705 | without equipment only the status changes; otherwise the steps are cleared, and a fetched list replaces the drinks and is shown filtered; a failed load keeps them |
| Screen.ModelAfterTypeChange | app.js:847-853 | a touched model is kept; an untouched one becomes the type's generic model, or stays for an unknown type |
| Screen.GenericModelsMatchTheirType | app.js:76-96 | each type's generic model is in the catalog with that type |
| Screen.MachinePicker.constructor | app.js:104 | the model is untouched |
| Screen.MachinePicker.ChooseMachine | app.js:861-868 | the model is set and marked touched; a catalog model checks its profile's radios; an unknown one leaves them |
| Screen.MachinePicker.ChooseMachineType | app.js:847-853 | the type radio changes; the model follows `ModelAfterTypeChange` |
| Screen.ActiveDotIndex | app.js:873-875 | the last lit dot is openCount − 1 bounded to [0, sections − 1], with at least one section counted |
| Screen.UpdateProgress | app.js:876-878 | dot k is lit exactly when k is at most the active index |
| RecipePrompt.LatteArtRequested | api/recipes.js:12-13 | latte art is requested only for a drink with a positive milk volume, never when it is not asked for or the setup has no milk |
| RecipePrompt.BuildPrompt | api/recipes.js:3-40 | the prompt starts with the instruction and the input lines |
| RecipePrompt.DrinkNameText | api/recipes.js:23 | a missing drink or empty name is "Unknown" |
| RecipePrompt.VolumeText | api/recipes.js:24-26 | only a missing volume is "-"; a present one is its number |
| RecipePrompt.ZeroVolumeIsWritten | api/recipes.js:24-26 | a volume of 0 is written "0", not "-" |
| RecipePrompt.LatteArtGate | api/recipes.js:12-27 | the prompt says "yes" iff latte art is asked for, the drink has positive milk and the setup has milk; "no" otherwise |
| RecipeHandler.BodyOrEmpty | api/recipes.js:61 | a present body is used as is; a missing one has every field absent and fails the required-fields guard |
| RecipeHandler.FieldsPresent | api/recipes.js:63-72 | a request that passes the guard has a drink whose own name is written in the prompt |
| RecipeHandler.PromptInputOf | api/recipes.js:74-82 | the prompt's machine, grinder, milk capability, bean type and roast are the request's own values, all non-empty; the drink is passed on; `latteArt` is the truthiness of the request's value |
| RecipeHandler.Accepted | api/recipes.js:124 | an accepted recipe is an object that has both a `steps` and a `name` key |
| RecipeHandler.SelectRecipe | api/recipes.js:119 | an array stands for its first element, an empty one for nothing; anything else for itself |
| RecipeHandler.ReplyResponse | api/recipes.js:108-131 | an upstream reply is answered 200 or 500 without `Allow`, and 200 iff a recipe is returned |
| RecipeHandler.Handle | api/recipes.js:42-133 | the status is 200, 400, 405 or 500; `Allow` iff 405; 200 iff a recipe is returned |
| RecipeHandler.MethodCheckedFirst | api/recipes.js:43-46 | any method but POST gets 405 with `Allow: POST`, whatever else, and no call |
| RecipeHandler.CredentialCheckedSecond | api/recipes.js:48-50 | a POST without credential gets 500 "Missing OPENAI_API_KEY" before the fields are read |
| RecipeHandler.MissingFieldsRejected | api/recipes.js:63-72 | a falsy required field or no body gets 400 "Missing required fields" and no call |
| RecipeHandler.CallExactlyWhenGuardsPass | api/recipes.js:74-106 | upstream is called iff the three guards pass, with the bearer credential, the model and the prompt of the request's fields |
| RecipeHandler.UpstreamErrorPassedOn | api/recipes.js:108-111 | a not-ok reply gives 500 "OpenAI API error" with the upstream text as details |
| RecipeHandler.UnparsableOutputRejected | api/recipes.js:113-122 | unparsable or empty content gives 500 "Invalid JSON from model" |
| RecipeHandler.AcceptedExactly | api/recipes.js:113-128 | 200 iff the content parses to a truthy recipe with truthy steps and name, returned unchanged; otherwise "No recipes returned" |
| RecipeHandler.ArrayStandsForFirstElement | api/recipes.js:119-124 | an array is judged by its first element; an empty array is rejected |
| RecipeHandler.EmptyStepsAccepted | api/recipes.js:124-128 | a named recipe with an empty steps array is accepted |

## Left out

- DOM work is not modelled: element lookups, `innerHTML`, class toggles,
  the sidebar and views, `renderDrinks`, loading states and ARIA
  attributes. Guidance lines are values (`Guidance.GuidanceLine`, worded by
  `LineText`). `RenderGuidance` returns the next adjustment as a `Direction`,
  worded by `NextAdjustmentText`.
- `fetch` of `/api/drinks` and of the chat-completions endpoint is not
  performed. Their outcomes are parameters: the fetched drink list or a
  failure, and `UpstreamReply`. `JSON.parse` is a parameter, except that an
  empty text always fails.
- RecipeHandler.UpstreamCall: it records the inputs of `buildPrompt` rather
  than the rendered user message. `UserMessage` gives that message as
  `BuildPrompt` of them.
- `handleDrinkClick`, `resetForm`, `shareSummary` (clipboard, `setTimeout`),
  `getDrinkLayers`, `setRingProgress` and the SVG icon markup are not
  modelled: they are UI, browser I/O or illustration-only geometry. Icons
  are the enum `StepIcon`.
- The `formatNumber` texts of the recipe summary and the summary/title/shot
  label texts of `renderRecipe` are not modelled. Only the numbers behind
  them are.
- Numbers are exact reals, not IEEE doubles. A ratio that a double rounds
  across 1.8 or 2.2 can take the other branch in the page.
- Text.ToFixed: it requires a non-negative number, which is all the page
  passes it.
- Text.DecimalText: it does not produce exponent notation, and it gives up
  exactness past 20 fraction digits.
- Text.NatText: it writes every natural number as plain digits. JavaScript
  writes 1e21 and above in exponent notation, so `BeanType.HouseBlendRoundTrip`
  holds for the page only below 1e21. Catalog baskets are far below that.
- Request text fields are strings or absent. A non-string JSON value in
  them is not modelled. The `drink` field is a drink record.
- RecipeSummary.TimeValue: the step list holds strings. A non-string step,
  on which `step.match` would throw, is not modelled.
- RecipeSummary.DeriveSummary: `steps` is a list of strings. The endpoint
  accepts any truthy `steps` (`RecipeHandler.Accepted`), so a string, a
  number, an object or `true` gets a 200 answer; on such a value
  `recipe.steps?.map(...)` throws in `renderRecipe`, and the `catch` of
  `handleDrinkClick` sets the status "Unable to generate recipe. Please try
  again." That failure path is not modelled.
- Text.Lower: it lower-cases ASCII letters only. JavaScript's `toLowerCase`
  also maps other letters, and can change the length (U+0130 becomes two
  characters). Only U+212A (Kelvin sign, to `k`) and U+0130 (to `i` and
  U+0307) lower-case into ASCII letters, and neither can complete one of the
  step keywords, so a step's icon is the same either way.
- The `console.error` logging of a failed recipe request is not modelled:
  it is console output.
- Overlapping recipe requests and their "last response wins" race are not
  modelled: they are an asynchronous race.
- Brewing.BrewingMode.Start: it does not model a missing overlay element.
  app.js guards against one (`!brewingMode`); the model assumes the element
  exists.

=== FILE: bean_type.dfy ===
/** The bean-type text of the recipe form, "House blend (<basket>g basket)",
    and `parseDoseFromBeanType`, which reads the dose back out of it with the
    regular expression /(\d+(?:\.\d+)?)\s*g/i (app.js). */
module BeanType {
  import opened JsValues
  import opened Text

  /** `beanType` as `getRecipeValues` writes it for a basket size. */
  function HouseBlend(basket: nat): string
  {
    "House blend (" + NatText(basket) + "g basket)"
  }

  /** A fraction's digits after the point, as a value below one. */
  function FractionValue(f: string): (v: real)
    requires AllDigits(f)
    ensures v >= 0.0
  {
    DigitsValue(f) as real / Pow10(|f|) as real
  }

  /** The match of the pattern that starts exactly at `i`, as the number its
      group denotes; only a digit can start one. */
  function DoseMatchAt(s: string, i: nat): (r: Option<real>)
    requires i <= |s|
    ensures r.Some? ==> i < |s| && IsDigit(s[i]) && r.value >= 0.0
    ensures r.Some? ==> exists m :: i < m < |s| && (s[m] == 'g' || s[m] == 'G')
  {
    if i < |s| && IsDigit(s[i]) then DoseMatchFromDigit(s, i) else None
  }

  /** The match at a digit. The greedy `\d+`, the optional `\.\d+` and `\s*`
      are taken at their longest: giving any of them back leaves a digit or a
      point in front of the `g`, so backtracking never finds another match at
      `i`. */
  function DoseMatchFromDigit(s: string, i: nat): (r: Option<real>)
    requires i < |s| && IsDigit(s[i])
    ensures r.Some? ==> r.value >= 0.0
    ensures r.Some? ==> exists m :: i < m < |s| && (s[m] == 'g' || s[m] == 'G')
  {
    var d := Span(s, i, IsDigit);
    var j := i + d;
    var whole := DigitsValue(s[i..j]);
    var hasFraction := j + 1 < |s| && s[j] == '.' && IsDigit(s[j + 1]);
    var f := if hasFraction then Span(s, j + 1, IsDigit) else 0;
    var k := if hasFraction then j + 1 + f else j;
    var value := if hasFraction then whole as real + FractionValue(s[j + 1..k]) else whole as real;
    var m := k + Span(s, k, IsSpace);
    if m < |s| && (s[m] == 'g' || s[m] == 'G') then Some(value) else None
  }

  /** The leftmost match at or after `i`. */
  function FirstDoseMatch(s: string, i: nat): (r: Option<real>)
    requires i <= |s|
    ensures r.Some? ==> r.value >= 0.0
    decreases |s| - i
  {
    if i == |s| then None
    else if DoseMatchAt(s, i).Some? then DoseMatchAt(s, i)
    else FirstDoseMatch(s, i + 1)
  }

  /** `parseDoseFromBeanType`: `null` for an empty (or absent) bean type,
      otherwise the number of the first match, `null` if there is none. */
  function ParseDoseFromBeanType(beanType: string): (r: Option<real>)
    ensures beanType == "" ==> r.None?
    ensures r.Some? ==> r.value >= 0.0
  {
    if beanType == "" then None else FirstDoseMatch(beanType, 0)
  }

  /** Positions without a digit cannot start a match. */
  lemma {:induction false} SkipNonDigits(s: string, i: nat, j: nat)
    requires i <= j <= |s|
    requires forall k :: i <= k < j ==> !IsDigit(s[k])
    ensures FirstDoseMatch(s, i) == FirstDoseMatch(s, j)
    decreases j - i
  {
    if i < j {
      assert DoseMatchAt(s, i).None?;
      SkipNonDigits(s, i + 1, j);
    }
  }

  /** The round trip: the dose read back from "House blend (<n>g basket)" is `n`. */
  lemma {:induction false} HouseBlendRoundTrip(n: nat)
    ensures ParseDoseFromBeanType(HouseBlend(n)) == Some(n as real)
  {
    var s := HouseBlend(n);
    var digits := NatText(n);
    var prefix := "House blend (";
    var L := |digits|;
    assert s == prefix + digits + "g basket)";
    assert s[13..13 + L] == digits;
    assert s[13 + L] == 'g';
    forall k | 0 <= k < 13
      ensures !IsDigit(s[k])
    {
      assert s[k] == prefix[k];
    }
    SkipNonDigits(s, 0, 13);
    forall k | 13 <= k < 13 + L
      ensures IsDigit(s[k])
    {
      assert s[k] == digits[k - 13];
    }
    DoseMatchAtRun(s, 13, L);
  }

  /** A run of `L` digits at `i` directly followed by `g` or `G` is a match
      worth the digits' value, and the leftmost one from `i`. */
  lemma {:induction false} DoseMatchAtRun(s: string, i: nat, L: nat)
    requires 0 < L && i + L < |s|
    requires forall k :: i <= k < i + L ==> IsDigit(s[k])
    requires s[i + L] == 'g' || s[i + L] == 'G'
    ensures DoseMatchAt(s, i) == Some(DigitsValue(s[i..i + L]) as real)
    ensures FirstDoseMatch(s, i) == DoseMatchAt(s, i)
  {
    assert !IsDigit(s[i + L]) && !IsSpace(s[i + L]) && s[i + L] != '.';
    SpanIsUnique(s, i, IsDigit, L);
    SpanIsUnique(s, i + L, IsSpace, 0);
    assert DoseMatchFromDigit(s, i) == Some(DigitsValue(s[i..i + L]) as real);
    assert DoseMatchAt(s, i) == DoseMatchFromDigit(s, i);
  }

  /** Only a text with a digit and, later, a `g` yields a dose: an empty bean
      type, one without digits and one without a `g` all give `null`. */
  lemma {:induction false} DoseNeedsDigitThenG(s: string)
    ensures ParseDoseFromBeanType(s).Some? ==>
              exists i, m :: 0 <= i < m < |s| && IsDigit(s[i]) && (s[m] == 'g' || s[m] == 'G')
  {
    if ParseDoseFromBeanType(s).Some? {
      var i := FirstMatchStartExists(s, 0);
      var m :| i < m < |s| && (s[m] == 'g' || s[m] == 'G');
      assert IsDigit(s[i]);
    }
  }

  /** Where the leftmost match starts. */
  lemma {:induction false} FirstMatchStartExists(s: string, i: nat) returns (start: nat)
    requires i <= |s| && FirstDoseMatch(s, i).Some?
    ensures i <= start < |s| && DoseMatchAt(s, start) == FirstDoseMatch(s, i)
    decreases |s| - i
  {
    if DoseMatchAt(s, i).Some? {
      start := i;
    } else {
      start := FirstMatchStartExists(s, i + 1);
    }
  }

  /** A digit immediately followed by `g` or `G` guarantees a dose. */
  lemma {:induction false} DigitThenGParses(s: string, i: nat)
    requires i + 1 < |s| && IsDigit(s[i]) && (s[i + 1] == 'g' || s[i + 1] == 'G')
    ensures ParseDoseFromBeanType(s).Some?
  {
    FirstMatchFrom(s, 0, i);
  }

  lemma {:induction false} FirstMatchFrom(s: string, j: nat, i: nat)
    requires j <= i && i + 1 < |s| && IsDigit(s[i]) && (s[i + 1] == 'g' || s[i + 1] == 'G')
    ensures FirstDoseMatch(s, j).Some?
    decreases i - j
  {
    if j == i {
      DoseMatchAtRun(s, i, 1);
    } else if DoseMatchAt(s, j).None? {
      FirstMatchFrom(s, j + 1, i);
    }
  }
}

=== FILE: brewing.dfy ===
/** Brewing mode (app.js): the step list of the last rendered recipe, the
    index of the step on screen, and whether the brewing overlay is open,
    with the handlers of the start, previous, next and close controls. */
module Brewing {
  /** `clamp` on integers: `Math.max(lo, Math.min(hi, value))`. */
  function IntClamp(value: int, lo: int, hi: int): (r: int)
    ensures lo <= hi ==> lo <= r <= hi
    ensures lo <= value <= hi ==> r == value
    ensures lo <= hi && value > hi ==> r == hi
    ensures hi < lo ==> r == lo
    ensures value < lo ==> r == lo
  {
    var m := if hi <= value then hi else value;
    if lo >= m then lo else m
  }

  /** An index the overlay can show: 0 for an empty list, else a position in it. */
  predicate IndexFits(index: int, count: nat)
  {
    0 <= index && (index < count || index == 0)
  }

  /** "Previous": `clamp(index - 1, 0, count - 1)`. From a fitting index it
      moves one step back, stopping at the first step. */
  function PrevIndex(index: int, count: nat): (r: int)
    ensures r >= 0
    ensures IndexFits(index, count) ==> IndexFits(r, count)
    ensures 0 < index < count ==> r == index - 1
    ensures index <= 0 ==> r == 0
  {
    IntClamp(index - 1, 0, count - 1)
  }

  /** "Next" closes the overlay from the last step (or from any index at or
      past it). */
  predicate NextCloses(index: int, count: nat)
  {
    index >= count - 1
  }

  /** The index after "Next": unchanged when it closes the overlay, one
      further otherwise. */
  function NextIndex(index: int, count: nat): (r: int)
    ensures NextCloses(index, count) ==> r == index
    ensures !NextCloses(index, count) && index >= -1 ==> r == index + 1
    ensures IndexFits(index, count) ==> IndexFits(r, count)
  {
    if NextCloses(index, count) then index else IntClamp(index + 1, 0, count - 1)
  }

  /** Pressing "Next" `k` times from step 0 without closing visits step `k`:
      every step of the list is reached, one press at a time. */
  function NextPresses(index: int, count: nat, k: nat): int
    decreases k
  {
    if k == 0 then index else NextPresses(NextIndex(index, count), count, k - 1)
  }

  lemma {:induction false} NextWalksTheList(count: nat, k: nat)
    requires k < count
    ensures NextPresses(0, count, k) == k
    ensures forall j :: 0 <= j < k ==> !NextCloses(NextPresses(0, count, j), count)
  {
    WalkFrom(0, count, k);
  }

  lemma {:induction false} WalkFrom(i: nat, count: nat, k: nat)
    requires i + k < count
    ensures NextPresses(i, count, k) == i + k
    ensures forall j :: 0 <= j < k ==> NextPresses(i, count, j) == i + j
    decreases k
  {
    if k > 0 {
      WalkFrom(i + 1, count, k - 1);
      assert NextIndex(i, count) == i + 1;
      forall j | 0 <= j < k
        ensures NextPresses(i, count, j) == i + j
      {
        if j > 0 {
          assert NextPresses(i, count, j) == NextPresses(i + 1, count, j - 1);
        }
      }
    }
  }

  /** The brewing overlay's state. */
  class BrewingMode {
    /** `brewingSteps`. */
    var steps: seq<string>
    /** `brewingStepIndex`. */
    var index: int
    /** Whether the overlay is open (`is-active`). */
    var active: bool

    ghost predicate Valid()
      reads this
    {
      IndexFits(index, |steps|)
    }

    /** The page's initial state: no steps, index 0, overlay closed. */
    constructor ()
      ensures Valid()
      ensures steps == [] && index == 0 && !active
    {
      steps := [];
      index := 0;
      active := false;
    }

    /** `renderRecipe`: `brewingSteps = recipe.steps || []` and the index
        back to 0 (an absent step list is passed as the empty one). */
    method LoadRecipe(recipeSteps: seq<string>)
      modifies this
      ensures Valid()
      ensures steps == recipeSteps && index == 0 && active == old(active)
    {
      steps := recipeSteps;
      index := 0;
    }

    /** `handleGenerateDrinks` clears the steps and the index. */
    method Clear()
      modifies this
      ensures Valid()
      ensures steps == [] && index == 0 && active == old(active)
    {
      steps := [];
      index := 0;
    }

    /** "Start brewing": the index goes back to 0 and the overlay opens,
        unless there are no steps (`openBrewingMode` then returns at once). */
    method Start()
      modifies this
      ensures Valid()
      ensures index == 0 && steps == old(steps)
      ensures active == (old(active) || |steps| > 0)
      ensures !old(active) ==> (active <==> StartEnabled())
    {
      index := 0;
      if |steps| > 0 {
        active := true;
      }
    }

    /** "Previous step": one step back, never below the first. */
    method Prev()
      requires Valid()
      modifies this
      ensures Valid()
      ensures index == PrevIndex(old(index), |steps|)
      ensures steps == old(steps) && active == old(active)
    {
      index := IntClamp(index - 1, 0, |steps| - 1);
    }

    /** "Next step": on the last step it closes the overlay and keeps the
        index; otherwise it moves one step on. */
    method Next()
      requires Valid()
      modifies this
      ensures Valid()
      ensures index == NextIndex(old(index), |steps|)
      ensures active == (old(active) && !NextCloses(old(index), |steps|))
      ensures steps == old(steps)
    {
      if index >= |steps| - 1 {
        Close();
        return;
      }
      index := IntClamp(index + 1, 0, |steps| - 1);
    }

    /** The exit button and the overlay backdrop. */
    method Close()
      modifies this
      ensures !active && steps == old(steps) && index == old(index)
    {
      active := false;
    }

    /** `brewingSteps[brewingStepIndex] || ""`. */
    function CurrentStep(): (step: string)
      reads this
      ensures 0 <= index < |steps| ==> step == steps[index]
      ensures !(0 <= index < |steps|) ==> step == ""
    {
      if 0 <= index < |steps| then steps[index] else ""
    }

    /** The previous button is disabled on the first step. */
    predicate PrevDisabled()
      reads this
    {
      index == 0
    }

    /** The next button reads "Finish" on the last step. */
    predicate ShowsFinish()
      reads this
    {
      index == |steps| - 1
    }

    /** The start button is enabled only when there are steps. */
    predicate StartEnabled()
      reads this
    {
      |steps| > 0
    }
  }

  /** The label of the next button tells the truth: over a non-empty list,
      "Next" closes the overlay exactly when the button reads "Finish", and
      "Previous" changes nothing exactly when it is disabled. */
  lemma {:induction false} ButtonsMatchMoves(b: BrewingMode)
    requires b.Valid() && |b.steps| > 0
    ensures NextCloses(b.index, |b.steps|) <==> b.ShowsFinish()
    ensures PrevIndex(b.index, |b.steps|) == b.index <==> b.PrevDisabled()
  {
  }
}

=== FILE: equipment.dfy ===
/** The recipe form's equipment values (app.js): the machine-profile catalog,
    `getRecipeValues` with its fallbacks and label mappings, and the drink
    filter applied when the setup has no milk. */
module Equipment {
  import opened JsValues
  import opened BeanType
  import opened Text

  /** A machine profile: its type, grinder kind, milk frothing mode and
      basket size in grams. */
  datatype Profile = Profile(machineType: string, grinder: string, milk: string, basket: nat)

  /** `machineDefaultsByType`: the generic model picked for a machine type. */
  const MachineDefaultsByType: map<string, string> := map[
    "semi-auto" := "Semi-Auto (Generic)",
    "automatic" := "Automatic (Generic)",
    "super-auto" := "Super-Auto (Generic)"
  ]

  /** `machineProfiles`. */
  const MachineProfiles: map<string, Profile> := map[
    "Semi-Auto (Generic)" := Profile("semi-auto", "burr", "steam", 18),
    "Automatic (Generic)" := Profile("automatic", "burr", "steam", 18),
    "Super-Auto (Generic)" := Profile("super-auto", "built-in", "frother", 14),
    "DeLonghi Magnifica Evo (non-LatteCrema version)" := Profile("super-auto", "built-in", "frother", 14),
    "Breville Bambino" := Profile("semi-auto", "burr", "steam", 18),
    "Gaggia Classic Pro" := Profile("semi-auto", "burr", "steam", 18),
    "Lelit Anna" := Profile("semi-auto", "burr", "steam", 18),
    "Rancilio Silvia" := Profile("semi-auto", "burr", "steam", 18),
    "Smeg Semi-Pro" := Profile("semi-auto", "burr", "steam", 18),
    "Lelit MaraX" := Profile("semi-auto", "burr", "steam", 18),
    "Rocket Appartamento" := Profile("semi-auto", "burr", "steam", 18),
    "Miele CM6360" := Profile("super-auto", "built-in", "frother", 14),
    "La Marzocco Linea Mini" := Profile("semi-auto", "burr", "steam", 18)
  ]

  /** What a machine type does on its own. */
  datatype Capabilities = Capabilities(autoGrind: bool, autoDose: bool, grindStyle: string)

  /** `machineCapabilitiesByType`. */
  const CapabilitiesByType: map<string, Capabilities> := map[
    "semi-auto" := Capabilities(false, false, "manual"),
    "automatic" := Capabilities(false, true, "manual"),
    "super-auto" := Capabilities(true, true, "auto")
  ]

  /** The recipe form as the DOM shows it: the selected machine model (empty
      when the select is missing or blank) and the value of the checked radio
      in each group (empty when none is checked). */
  datatype RecipeForm = RecipeForm(
    selectedMachine: string,
    machineType: string,
    grinderType: string,
    milkFrothing: string,
    roastLevel: string,
    grindRange: string,
    freshness: string,
    waterType: string,
    latteArtChecked: bool)

  /** The values sent with a recipe request. */
  datatype RecipeValues = RecipeValues(
    machine: string,
    grinder: string,
    milkCapability: string,
    beanType: string,
    roast: string,
    grindRange: string,
    freshness: string,
    waterType: string,
    latteArt: bool,
    capabilities: Capabilities)

  /** The three grinder labels a request can carry. */
  predicate IsGrinderLabel(s: string)
  {
    s == "Burr grinder" || s == "Built-in grinder" || s == "Pre-ground coffee"
  }

  /** `grinderLabels[grinderType] || grinderLabels.burr`: an unknown grinder
      kind is reported as a burr grinder. */
  function GrinderLabel(grinderType: string): (name: string)
    ensures IsGrinderLabel(name)
    ensures grinderType == "built-in" ==> name == "Built-in grinder"
    ensures grinderType == "preground" ==> name == "Pre-ground coffee"
    ensures grinderType != "built-in" && grinderType != "preground" ==> name == "Burr grinder"
  {
    if grinderType == "burr" then "Burr grinder"
    else if grinderType == "built-in" then "Built-in grinder"
    else if grinderType == "preground" then "Pre-ground coffee"
    else "Burr grinder"
  }

  /** The milk capability derived from the frothing mode. */
  function MilkCapability(milkFrothing: string): (cap: string)
    ensures cap == "steam wand" <==> milkFrothing == "steam"
    ensures cap == "auto milk" <==> milkFrothing == "frother"
    ensures cap == "no milk" <==> milkFrothing != "steam" && milkFrothing != "frother"
  {
    if milkFrothing == "steam" then "steam wand"
    else if milkFrothing == "frother" then "auto milk"
    else "no milk"
  }

  /** The model used when none is selected. */
  const FallbackMachine: string := "Semi-Auto (Generic)"

  /** `machineCapabilitiesByType[machineType] || machineCapabilitiesByType["semi-auto"]`. */
  function CapabilitiesOf(machineType: string): (c: Capabilities)
    ensures machineType in CapabilitiesByType ==> c == CapabilitiesByType[machineType]
    ensures machineType !in CapabilitiesByType ==> c == CapabilitiesByType["semi-auto"]
  {
    if machineType in CapabilitiesByType then CapabilitiesByType[machineType] else Capabilities(false, false, "manual")
  }

  /** `machineProfiles[selectedMachine]`, `undefined` for a model the catalog
      does not know. Every catalog entry fills all its fields, with a basket
      of some grams and a machine type that has capabilities, so none of the
      `||` fallbacks of `getRecipeValues` applies to a known model. */
  function ProfileOf(machine: string): (r: Option<Profile>)
    ensures r.Some? ==> && r.value.machineType in CapabilitiesByType
                        && r.value.grinder != "" && r.value.milk != "" && r.value.basket != 0
  {
    if machine in MachineProfiles then Some(MachineProfiles[machine]) else None
  }

  /** The values for a selected model and its profile, if any. */
  function ValuesFor(machine: string, profile: Option<Profile>, form: RecipeForm): (v: RecipeValues)
    ensures v.machine == machine && v.latteArt == form.latteArtChecked
    ensures IsGrinderLabel(v.grinder)
    ensures profile.Some? && profile.value.grinder != "" ==> v.grinder == GrinderLabel(profile.value.grinder)
    ensures profile.Some? && profile.value.milk != "" ==> v.milkCapability == MilkCapability(profile.value.milk)
    ensures profile.None? ==> v.grinder == GrinderLabel(OrElse(form.grinderType, "burr"))
    ensures profile.None? ==> v.milkCapability == MilkCapability(OrElse(form.milkFrothing, "steam"))
    ensures profile.Some? && profile.value.basket != 0 ==> v.beanType == HouseBlend(profile.value.basket)
    ensures profile.None? ==> v.beanType == HouseBlend(18)
    ensures v.roast == OrElse(form.roastLevel, "medium") && v.roast != ""
    ensures v.grindRange == OrElse(form.grindRange, "fine") && v.grindRange != ""
    ensures v.freshness == OrElse(form.freshness, "0-7") && v.freshness != ""
    ensures v.waterType == OrElse(form.waterType, "filtered") && v.waterType != ""
  {
    var machineType := OrElse(if profile.Some? then profile.value.machineType else "",
                              OrElse(form.machineType, "semi-auto"));
    var grinderType := OrElse(if profile.Some? then profile.value.grinder else "",
                              OrElse(form.grinderType, "burr"));
    var milkFrothing := OrElse(if profile.Some? then profile.value.milk else "",
                               OrElse(form.milkFrothing, "steam"));
    var basketSize := if profile.Some? && profile.value.basket != 0 then profile.value.basket else 18;
    RecipeValues(
      machine,
      GrinderLabel(grinderType),
      MilkCapability(milkFrothing),
      HouseBlend(basketSize),
      OrElse(form.roastLevel, "medium"),
      OrElse(form.grindRange, "fine"),
      OrElse(form.freshness, "0-7"),
      OrElse(form.waterType, "filtered"),
      form.latteArtChecked,
      CapabilitiesOf(machineType))
  }

  /** `getRecipeValues()`: the selected model, or the generic semi-automatic
      one; the model's profile when the catalog knows it, else the checked
      radios, else the semi-automatic defaults; basket 18 g when the profile
      gives none. A known model therefore fixes grinder, milk capability,
      bean type and capabilities whatever the radios say. */
  function GetRecipeValues(form: RecipeForm): (v: RecipeValues)
    ensures v.machine == OrElse(form.selectedMachine, FallbackMachine) && v.machine != ""
    ensures IsGrinderLabel(v.grinder)
    ensures v.milkCapability in {"steam wand", "auto milk", "no milk"}
    ensures v.latteArt == form.latteArtChecked
    ensures v.roast == OrElse(form.roastLevel, "medium") && v.roast != ""
    ensures v.grindRange == OrElse(form.grindRange, "fine") && v.grindRange != ""
    ensures v.freshness == OrElse(form.freshness, "0-7") && v.freshness != ""
    ensures v.waterType == OrElse(form.waterType, "filtered") && v.waterType != ""
    ensures ProfileOf(v.machine).Some? ==>
              var p := ProfileOf(v.machine).value;
              && v.grinder == GrinderLabel(p.grinder)
              && v.milkCapability == MilkCapability(p.milk)
              && v.beanType == HouseBlend(p.basket)
              && v.capabilities == CapabilitiesByType[p.machineType]
    ensures ProfileOf(v.machine).None? ==>
              && v.grinder == GrinderLabel(OrElse(form.grinderType, "burr"))
              && v.milkCapability == MilkCapability(OrElse(form.milkFrothing, "steam"))
              && v.beanType == HouseBlend(18)
              && v.capabilities == CapabilitiesOf(OrElse(form.machineType, "semi-auto"))
  {
    var machine := OrElse(form.selectedMachine, FallbackMachine);
    ValuesFor(machine, ProfileOf(machine), form)
  }

  /** The dose read back from the request's bean type is the machine's basket
      size (18 g for a model the catalog does not know). */
  lemma {:induction false} BeanTypeCarriesBasket(form: RecipeForm)
    ensures var v := GetRecipeValues(form);
      ParseDoseFromBeanType(v.beanType)
      == Some((if v.machine in MachineProfiles then MachineProfiles[v.machine].basket else 18) as real)
  {
    var v := GetRecipeValues(form);
    if v.machine in MachineProfiles {
      HouseBlendRoundTrip(MachineProfiles[v.machine].basket);
    } else {
      HouseBlendRoundTrip(18);
    }
  }

  /** The drinks of `drinks` that need no milk, in their order (the
      `drinks.filter((drink) => !drink.milkRequired)` of `handleGenerateDrinks`). */
  function WithoutMilkDrinks(drinks: seq<Drink>): (r: seq<Drink>)
    ensures forall d :: d in r ==> d in drinks && !d.milkRequired
    ensures forall d: Drink :: !d.milkRequired ==> multiset(r)[d] == multiset(drinks)[d]
  {
    if drinks == [] then []
    else
      var rest := WithoutMilkDrinks(drinks[1..]);
      assert drinks == [drinks[0]] + drinks[1..];
      if drinks[0].milkRequired then rest else [drinks[0]] + rest
  }

  /** A list of milk drinks only filters down to nothing. */
  lemma {:induction false} AllMilkDrinksDropped(drinks: seq<Drink>)
    requires forall k :: 0 <= k < |drinks| ==> drinks[k].milkRequired
    ensures WithoutMilkDrinks(drinks) == []
  {
    if drinks != [] {
      AllMilkDrinksDropped(drinks[1..]);
    }
  }

  /** `r` is `s` with some elements left out and the rest in their order. */
  ghost predicate IsSubsequence<T>(r: seq<T>, s: seq<T>)
    decreases |s|
  {
    if s == [] then r == []
    else (r != [] && r[0] == s[0] && IsSubsequence(r[1..], s[1..])) || IsSubsequence(r, s[1..])
  }

  /** The filter keeps the order of the drinks it keeps. */
  lemma {:induction false} WithoutMilkKeepsOrder(drinks: seq<Drink>)
    ensures IsSubsequence(WithoutMilkDrinks(drinks), drinks)
  {
    if drinks != [] {
      WithoutMilkKeepsOrder(drinks[1..]);
      var rest := WithoutMilkDrinks(drinks[1..]);
      if !drinks[0].milkRequired {
        assert WithoutMilkDrinks(drinks) == [drinks[0]] + rest;
        assert ([drinks[0]] + rest)[1..] == rest;
      }
    }
  }

  /** `filtered` in `handleGenerateDrinks`: with "no milk" exactly the drinks
      that require milk are dropped; any other capability shows the whole list. */
  function VisibleDrinks(drinks: seq<Drink>, milkCapability: string): (r: seq<Drink>)
    ensures milkCapability != "no milk" ==> r == drinks
    ensures milkCapability == "no milk" ==>
              && (forall d :: d in r ==> !d.milkRequired)
              && (forall d: Drink :: !d.milkRequired ==> multiset(r)[d] == multiset(drinks)[d])
  {
    if milkCapability == "no milk" then WithoutMilkDrinks(drinks) else drinks
  }
}

=== FILE: form.dfy ===
/** The dial-in form: `clamp` and the clamping and defaulting of the numeric
    fields done by `getValues` (app.js). */
module Form {
  import opened JsValues

  function Min(a: real, b: real): real
  {
    if a <= b then a else b
  }

  function Max(a: real, b: real): real
  {
    if a >= b then a else b
  }

  /** `clamp(value, min, max)`: `Math.max(min, Math.min(max, value))`. Over
      a non-empty range the result lies in the range, is `value` itself
      when that is already in range, and is the nearer end otherwise. */
  function Clamp(value: real, lo: real, hi: real): (r: real)
    ensures lo <= hi ==> lo <= r <= hi
    ensures lo <= value <= hi ==> r == value
    ensures lo <= hi && value < lo ==> r == lo
    ensures lo <= hi && value > hi ==> r == hi
    ensures hi < lo ==> r == lo
  {
    Max(lo, Min(hi, value))
  }

  /** `clamp(Number(text) || fallback, lo, hi)`: NaN and 0 are falsy and are
      replaced by the fallback; the infinities are clamped like any other
      number (`Math.min(hi, Infinity)` is `hi`, `Math.max(lo, -Infinity)` is
      `lo`). */
  function ClampField(n: JsNumber, fallback: real, lo: real, hi: real): (r: real)
    ensures lo <= hi ==> lo <= r <= hi
    ensures n.Finite? && n.value != 0.0 ==> r == Clamp(n.value, lo, hi)
    ensures n.NaN? || n == Finite(0.0) ==> r == Clamp(fallback, lo, hi)
    ensures n.PosInfinity? && lo <= hi ==> r == hi
    ensures n.NegInfinity? ==> r == lo
  {
    match n
    case NaN => Clamp(fallback, lo, hi)
    case Finite(v) => if v == 0.0 then Clamp(fallback, lo, hi) else Clamp(v, lo, hi)
    case PosInfinity => Max(lo, hi)
    case NegInfinity => lo
  }

  /** The raw form fields; each numeric field is what `Number(...)` makes of its text. */
  datatype FormFields = FormFields(
    machine: string,
    basket: JsNumber,
    dose: JsNumber,
    yieldGrams: JsNumber,
    time: JsNumber,
    roast: string,
    grinder: string)

  /** The values the guidance engine works on (grams and seconds). */
  datatype FormValues = FormValues(
    machine: string,
    basket: real,
    dose: real,
    yieldGrams: real,
    time: real,
    roast: string,
    grinder: string)

  const DefaultBasket: real := 18.0
  const DefaultDose: real := 18.0
  const DefaultYield: real := 36.0
  const DefaultTime: real := 28.0

  /** Falsy field text: NaN or zero. */
  predicate Falsy(n: JsNumber)
  {
    n.NaN? || n == Finite(0.0)
  }

  /** `getValues()`: every numeric field lands in its range (basket and dose
      in [10, 24] g, yield in [20, 60] g, time in [10, 60] s), so the ratio's
      divisor is at least 10; a falsy field takes its default; an in-range
      number is kept as typed; the text fields pass through. */
  function GetValues(fields: FormFields): (v: FormValues)
    ensures 10.0 <= v.basket <= 24.0 && 10.0 <= v.dose <= 24.0
    ensures 20.0 <= v.yieldGrams <= 60.0 && 10.0 <= v.time <= 60.0
    ensures Falsy(fields.basket) ==> v.basket == DefaultBasket
    ensures Falsy(fields.dose) ==> v.dose == DefaultDose
    ensures Falsy(fields.yieldGrams) ==> v.yieldGrams == DefaultYield
    ensures Falsy(fields.time) ==> v.time == DefaultTime
    ensures fields.basket.Finite? && 10.0 <= fields.basket.value <= 24.0 ==> v.basket == fields.basket.value
    ensures fields.dose.Finite? && 10.0 <= fields.dose.value <= 24.0 ==> v.dose == fields.dose.value
    ensures fields.yieldGrams.Finite? && 20.0 <= fields.yieldGrams.value <= 60.0 ==>
              v.yieldGrams == fields.yieldGrams.value
    ensures fields.time.Finite? && 10.0 <= fields.time.value <= 60.0 ==> v.time == fields.time.value
    ensures v.machine == fields.machine && v.roast == fields.roast && v.grinder == fields.grinder
  {
    FormValues(
      fields.machine,
      ClampField(fields.basket, DefaultBasket, 10.0, 24.0),
      ClampField(fields.dose, DefaultDose, 10.0, 24.0),
      ClampField(fields.yieldGrams, DefaultYield, 20.0, 60.0),
      ClampField(fields.time, DefaultTime, 10.0, 60.0),
      fields.roast,
      fields.grinder)
  }
}

=== FILE: guidance.dfy ===
/** The dial-in guidance engine of app.js: grind advice, dose/yield advice,
    the next-adjustment directive and the four guidance lines, all decided by
    strict comparisons of the ratio (yield / dose) and the shot time against
    the target ratio 2.0 ± 0.2 and the 25-30 s window. */
module Guidance {
  import opened Text
  import opened Form

  const TargetRatio: real := 2.0
  const TimeMin: real := 25.0
  const TimeMax: real := 30.0

  /** `yield / dose`, the brew ratio. */
  function Ratio(yieldGrams: real, dose: real): (r: real)
    requires dose > 0.0
    ensures yieldGrams >= 0.0 ==> r >= 0.0
  {
    yieldGrams / dose
  }

  /** Both signals inside the closed target bands: ratio in [1.8, 2.2] and
      time in [25, 30] s. */
  predicate InBand(ratio: real, time: real)
  {
    1.8 <= ratio <= 2.2 && 25.0 <= time <= 30.0
  }

  /** The direction of a grind change. */
  datatype Direction = Finer | Coarser | Keep

  function GrindAdvice(d: Direction): string
  {
    match d
    case Finer => "Grind finer to slow the flow and increase extraction."
    case Coarser => "Grind coarser to speed up the flow and reduce over-extraction."
    case Keep => "Grind looks close; keep the same grind setting."
  }

  function NextAdjustmentText(d: Direction): string
  {
    match d
    case Finer => "Next adjustment: Grind finer slightly."
    case Coarser => "Next adjustment: Grind coarser slightly."
    case Keep => "Next adjustment: Keep settings and adjust yield \U{00B1}1\U{2013}2 g if needed."
  }

  /** The five dose/yield messages. */
  datatype DoseYieldAdvice = RaiseYield | LowerYield | Sharp | Bitter | Balanced

  function DoseYieldText(a: DoseYieldAdvice): string
  {
    match a
    case RaiseYield => "Increase yield slightly or reduce dose to reach the target ratio."
    case LowerYield => "Reduce yield slightly or increase dose to pull closer to 1:2."
    case Sharp => "If flavor is sharp, extend time by grinding finer or slightly increasing dose."
    case Bitter => "If flavor is bitter, shorten time by grinding coarser or slightly reducing dose."
    case Balanced => "Dose and yield are balanced; adjust in small steps if taste needs a tweak."
  }

  /** The decision of `getGrindGuidance`: "finer" exactly when the shot runs
      short of 25 s or the ratio exceeds 2.2; otherwise "coarser" exactly when
      it runs past 30 s or the ratio is under 1.8; "looks close" exactly when
      both are in band, boundaries included. */
  function GrindDirection(ratio: real, time: real): (d: Direction)
    ensures d == Finer <==> time < 25.0 || ratio > 2.2
    ensures d == Coarser <==> !(time < 25.0 || ratio > 2.2) && (time > 30.0 || ratio < 1.8)
    ensures d == Keep <==> InBand(ratio, time)
  {
    if time < TimeMin || ratio > TargetRatio + 0.2 then Finer
    else if time > TimeMax || ratio < TargetRatio - 0.2 then Coarser
    else Keep
  }

  /** `getGrindGuidance`: the advice line for the decided direction. */
  function GetGrindGuidance(ratio: real, time: real): (s: string)
    ensures time < 25.0 || ratio > 2.2 ==> s == GrindAdvice(Finer)
    ensures !(time < 25.0 || ratio > 2.2) && (time > 30.0 || ratio < 1.8) ==> s == GrindAdvice(Coarser)
    ensures InBand(ratio, time) ==> s == GrindAdvice(Keep)
  {
    GrindAdvice(GrindDirection(ratio, time))
  }

  /** The decision of `getDoseYieldGuidance`: a ratio outside [1.8, 2.2]
      decides the advice whatever the time; the time-based "sharp"/"bitter"
      lines need the ratio in band; "balanced" needs both in band. */
  function DoseYieldDecision(dose: real, yieldGrams: real, time: real): (a: DoseYieldAdvice)
    requires dose > 0.0
    ensures Ratio(yieldGrams, dose) < 1.8 ==> a == RaiseYield
    ensures Ratio(yieldGrams, dose) > 2.2 ==> a == LowerYield
    ensures a == Sharp <==> 1.8 <= Ratio(yieldGrams, dose) <= 2.2 && time < 25.0
    ensures a == Bitter <==> 1.8 <= Ratio(yieldGrams, dose) <= 2.2 && time > 30.0
    ensures a == Balanced <==> InBand(Ratio(yieldGrams, dose), time)
  {
    var ratio := Ratio(yieldGrams, dose);
    if ratio < TargetRatio - 0.2 then RaiseYield
    else if ratio > TargetRatio + 0.2 then LowerYield
    else if time < TimeMin then Sharp
    else if time > TimeMax then Bitter
    else Balanced
  }

  /** `getDoseYieldGuidance`: the advice line for the decided case. */
  function GetDoseYieldGuidance(dose: real, yieldGrams: real, time: real): (s: string)
    requires dose > 0.0
    ensures Ratio(yieldGrams, dose) < 1.8 ==> s == DoseYieldText(RaiseYield)
    ensures Ratio(yieldGrams, dose) > 2.2 ==> s == DoseYieldText(LowerYield)
    ensures 1.8 <= Ratio(yieldGrams, dose) <= 2.2 && time < 25.0 ==> s == DoseYieldText(Sharp)
    ensures 1.8 <= Ratio(yieldGrams, dose) <= 2.2 && time > 30.0 ==> s == DoseYieldText(Bitter)
    ensures InBand(Ratio(yieldGrams, dose), time) ==> s == DoseYieldText(Balanced)
  {
    DoseYieldText(DoseYieldDecision(dose, yieldGrams, time))
  }

  /** The decision of `getNextAdjustment`: the same conditions as the grind
      advice, written out a second time in app.js. */
  function NextDirection(ratio: real, time: real): (d: Direction)
    ensures d == Finer <==> time < 25.0 || ratio > 2.2
    ensures d == Coarser <==> !(time < 25.0 || ratio > 2.2) && (time > 30.0 || ratio < 1.8)
    ensures d == Keep <==> InBand(ratio, time)
  {
    if time < TimeMin || ratio > TargetRatio + 0.2 then Finer
    else if time > TimeMax || ratio < TargetRatio - 0.2 then Coarser
    else Keep
  }

  /** `getNextAdjustment`: the one-line directive for the decided direction. */
  function GetNextAdjustment(ratio: real, time: real): (s: string)
    ensures time < 25.0 || ratio > 2.2 ==> s == NextAdjustmentText(Finer)
    ensures !(time < 25.0 || ratio > 2.2) && (time > 30.0 || ratio < 1.8) ==> s == NextAdjustmentText(Coarser)
    ensures InBand(ratio, time) ==> s == NextAdjustmentText(Keep)
  {
    NextAdjustmentText(NextDirection(ratio, time))
  }

  /** The next adjustment always points the same way as the grind advice. */
  lemma NextAdjustmentMatchesGrind(ratio: real, time: real)
    ensures NextDirection(ratio, time) == GrindDirection(ratio, time)
  {
  }

  /** The third guidance line: the target ratio to one decimal (the text
      "2.0", see `TargetTexts`), the current ratio to two. */
  function RatioLine(ratio: real): string
    requires ratio >= 0.0
  {
    "Target ratio: 1:2.0 (current " + ToFixed(ratio, 2) + ")."
  }

  /** The fourth guidance line: the time window (its bounds rendered as
      `TargetTexts` shows) and the current time. */
  function TimeLine(time: real): string
  {
    "Target time: 25-30s (current " + DecimalText(time) + "s)."
  }

  /** The constant parts of the ratio and time lines are the target's own
      numbers as `toFixed(1)` and interpolation render them. */
  lemma {:induction false} TargetTexts()
    ensures ToFixed(TargetRatio, 1) == "2.0"
    ensures DecimalText(TimeMin) == "25" && DecimalText(TimeMax) == "30"
  {
    TwoToFixed();
    DecimalTextOfNat(25);
    DecimalTextOfNat(30);
    assert NatText(25) == "25";
    assert NatText(30) == "30";
  }

  /** A guidance line, named by what decides it; `LineText` gives its
      wording. */
  datatype GuidanceLine =
    | GrindLine(direction: Direction)
    | DoseYieldLine(advice: DoseYieldAdvice)
    | RatioRestatement(currentRatio: real)
    | TimeRestatement(currentTime: real)

  /** The text of a line as `buildGuidance` pushes it. */
  function LineText(line: GuidanceLine): string
    requires line.RatioRestatement? ==> line.currentRatio >= 0.0
  {
    match line
    case GrindLine(d) => GrindAdvice(d)
    case DoseYieldLine(a) => DoseYieldText(a)
    case RatioRestatement(r) => RatioLine(r)
    case TimeRestatement(t) => TimeLine(t)
  }

  /** `buildGuidance`: exactly four lines, in order: grind advice, dose/yield
      advice, the ratio restatement, the time restatement. */
  method BuildGuidance(values: FormValues) returns (bullets: seq<GuidanceLine>)
    requires values.dose > 0.0
    ensures |bullets| == 4
    ensures bullets[0] == GrindLine(GrindDirection(Ratio(values.yieldGrams, values.dose), values.time))
    ensures bullets[1] == DoseYieldLine(DoseYieldDecision(values.dose, values.yieldGrams, values.time))
    ensures bullets[2] == RatioRestatement(Ratio(values.yieldGrams, values.dose))
    ensures bullets[3] == TimeRestatement(values.time)
  {
    var ratio := Ratio(values.yieldGrams, values.dose);
    bullets := [];
    bullets := bullets + [GrindLine(GrindDirection(ratio, values.time))];
    bullets := bullets + [DoseYieldLine(DoseYieldDecision(values.dose, values.yieldGrams, values.time))];
    bullets := bullets + [RatioRestatement(ratio)];
    bullets := bullets + [TimeRestatement(values.time)];
  }

  /** The first two lines read as `getGrindGuidance` and
      `getDoseYieldGuidance` word them. */
  lemma {:induction false} LineTextsAreTheAdvice(dose: real, yieldGrams: real, time: real)
    requires dose > 0.0
    ensures LineText(GrindLine(GrindDirection(Ratio(yieldGrams, dose), time)))
            == GetGrindGuidance(Ratio(yieldGrams, dose), time)
    ensures LineText(DoseYieldLine(DoseYieldDecision(dose, yieldGrams, time)))
            == GetDoseYieldGuidance(dose, yieldGrams, time)
  {
  }

  /** `renderGuidance` without the DOM: read the form, build the four lines
      and decide the next adjustment (worded by `NextAdjustmentText`). The
      clamped dose keeps the ratio defined for every form state, and the
      directive agrees with the first line. */
  method RenderGuidance(fields: FormFields) returns (bullets: seq<GuidanceLine>, next: Direction)
    ensures |bullets| == 4
    ensures var v := GetValues(fields);
      && bullets[0] == GrindLine(GrindDirection(Ratio(v.yieldGrams, v.dose), v.time))
      && bullets[1] == DoseYieldLine(DoseYieldDecision(v.dose, v.yieldGrams, v.time))
      && bullets[2] == RatioRestatement(Ratio(v.yieldGrams, v.dose))
      && bullets[3] == TimeRestatement(v.time)
      && next == NextDirection(Ratio(v.yieldGrams, v.dose), v.time)
      && bullets[0] == GrindLine(next)
  {
    var values := GetValues(fields);
    bullets := BuildGuidance(values);
    var ratio := Ratio(values.yieldGrams, values.dose);
    next := NextDirection(ratio, values.time);
    NextAdjustmentMatchesGrind(ratio, values.time);
  }

  /** Every shot with ratio in [1.8, 2.2] and time in [25, 30] s, boundaries
      included, gets "looks close", "balanced" and "keep settings"; and a shot
      outside either band gets none of the three. */
  lemma {:induction false} KeepExactlyInBand(dose: real, yieldGrams: real, time: real)
    requires dose > 0.0
    ensures InBand(Ratio(yieldGrams, dose), time) <==> GrindDirection(Ratio(yieldGrams, dose), time) == Keep
    ensures InBand(Ratio(yieldGrams, dose), time) <==> DoseYieldDecision(dose, yieldGrams, time) == Balanced
    ensures InBand(Ratio(yieldGrams, dose), time) <==> NextDirection(Ratio(yieldGrams, dose), time) == Keep
  {
  }

  /** "Finer" wins when a short time meets a low ratio, and a ratio above 2.2
      means "finer" at any time. */
  lemma FinerWinsOverCoarser(ratio: real, time: real)
    requires (time < 25.0 && ratio < 1.8) || ratio > 2.2
    ensures GrindDirection(ratio, time) == Finer
    ensures NextDirection(ratio, time) == Finer
  {
  }

  /** dose 18 g, yield 36 g, time 28 s: "looks close", "balanced" and
      "keep settings". */
  lemma {:induction false} BalancedShotScenario()
    ensures GrindDirection(Ratio(36.0, 18.0), 28.0) == Keep
    ensures DoseYieldDecision(18.0, 36.0, 28.0) == Balanced
    ensures NextDirection(Ratio(36.0, 18.0), 28.0) == Keep
  {
    assert Ratio(36.0, 18.0) == 2.0;
  }

  /** The same shot's restatement lines. */
  lemma {:induction false} BalancedShotRestatements()
    ensures RatioLine(Ratio(36.0, 18.0)) == "Target ratio: 1:2.0 (current 2.00)."
    ensures TimeLine(28.0) == "Target time: 25-30s (current 28s)."
  {
    assert Ratio(36.0, 18.0) == 2.0;
    TwoToFixed();
    DecimalTextOfNat(28);
    assert NatText(28) == "28";
  }

  lemma TwoToFixed()
    ensures ToFixed(2.0, 1) == "2.0" && ToFixed(2.0, 2) == "2.00"
  {
    assert ToFixed(2.0, 1) == "2.0" by {
      assert Pow10(1) == 10;
      assert Scaled(2.0, 10) == 20.0;
      assert RoundHalfUp(20.0) == 20;
      assert Quotient(20, 10) == 2 && Remainder(20, 10) == 0;
      assert NatText(2) == "2";
      assert PaddedDigits(0, 1) == "0";
    }
    assert ToFixed(2.0, 2) == "2.00" by {
      assert Pow10(2) == 100;
      assert Scaled(2.0, 100) == 200.0;
      assert RoundHalfUp(200.0) == 200;
      assert Quotient(200, 100) == 2 && Remainder(200, 100) == 0;
      assert NatText(2) == "2";
      assert PaddedDigits(0, 2) == "00";
    }
  }

  /** dose 18 g, yield 30 g (ratio about 1.67), time 20 s: grind finer, raise
      the yield or lower the dose, and the directive says finer. */
  lemma FastThinShotScenario()
    ensures GrindDirection(Ratio(30.0, 18.0), 20.0) == Finer
    ensures DoseYieldDecision(18.0, 30.0, 20.0) == RaiseYield
    ensures NextDirection(Ratio(30.0, 18.0), 20.0) == Finer
  {
  }
}

=== FILE: js_values.dfy ===
/** Values as JavaScript hands them to the dial-in helper: optional values,
    numbers produced by `Number(...)`, parsed JSON documents and their truthiness,
    and the drink records of the drink catalog. */
module JsValues {

  /** `undefined`/`null` versus a present value. */
  datatype Option<+T> = None | Some(value: T)

  /** The result of `Number(text)` on a form field: a finite value, an infinity,
      or NaN for text that is not a number. */
  datatype JsNumber = Finite(value: real) | PosInfinity | NegInfinity | NaN

  /** A JSON document as `JSON.parse` returns it. Objects are maps because a
      repeated key keeps its last value. */
  datatype Json =
    | JNull
    | JBool(b: bool)
    | JNumber(n: real)
    | JString(s: string)
    | JArray(elems: seq<Json>)
    | JObject(fields: map<string, Json>)

  /** The outcome of `JSON.parse`: it throws, or it yields a document. */
  datatype ParseResult = ParseFail | Parsed(doc: Json)

  /** JavaScript truthiness of a value that may be `undefined`: `undefined`,
      `null`, `false`, `0` and `""` are falsy; every array and object,
      empty or not, is truthy. */
  predicate Truthy(v: Option<Json>)
    ensures Truthy(v) ==> v.Some? && !v.value.JNull?
    ensures v.Some? && (v.value.JArray? || v.value.JObject?) ==> Truthy(v)
  {
    match v
    case None => false
    case Some(JNull) => false
    case Some(JBool(b)) => b
    case Some(JNumber(n)) => n != 0.0
    case Some(JString(s)) => s != ""
    case Some(JArray(_)) => true
    case Some(JObject(_)) => true
  }

  /** Property access `v.key` on a present value: only objects have own
      properties named by the recipe check; on every other JSON value the
      access yields `undefined`. */
  function Property(v: Json, key: string): (r: Option<Json>)
    ensures r.Some? <==> v.JObject? && key in v.fields
  {
    match v
    case JObject(fields) => if key in fields then Some(fields[key]) else None
    case _ => None
  }

  /** `a || b` on strings: the empty string (the only falsy string) gives way to `b`. */
  function OrElse(a: string, b: string): string
  {
    if a != "" then a else b
  }

  /** A drink of the drink catalog. Volumes are in fluid ounces and may be
      missing (`null` or `undefined`). */
  datatype Drink = Drink(
    id: string,
    name: string,
    espressoOz: Option<real>,
    milkOz: Option<real>,
    waterOz: Option<real>,
    milkRequired: bool)
}

=== FILE: recipe_handler.dfy ===
/** The `/api/recipes` handler (api/recipes.js) as a function: a request, the
    server's credential, what the upstream chat-completions call yields and
    what `JSON.parse` makes of a text, mapped to the upstream call made (if
    any) and the response sent. */
module RecipeHandler {
  import opened JsValues
  import opened RecipePrompt

  /** The fields the handler destructures from the request body. The text
      fields are absent or strings; `latteArt` is any JSON value (or absent);
      `drink` is the drink object the page sends. */
  datatype RequestBody = RequestBody(
    machine: Option<string>,
    grinder: Option<string>,
    milkCapability: Option<string>,
    beanType: Option<string>,
    roast: Option<string>,
    latteArt: Option<Json>,
    drink: Option<Drink>)

  /** A request: its HTTP method and its parsed body (`None` when there is none). */
  datatype Request = Request(httpMethod: string, body: Option<RequestBody>)

  /** What the upstream call yields: a response that is not ok with its body
      text, an ok response with the first choice's message content (the empty
      text when there is none), or an exception (network failure, unreadable
      body). */
  datatype UpstreamReply = NotOk(errorText: string) | Completed(content: string) | Threw

  /** The chat-completions request the handler sends. Its user message is
      `buildPrompt` applied to `promptInput` (see `UserMessage`). */
  datatype UpstreamCall = UpstreamCall(
    model: string,
    authorization: string,
    systemPrompt: string,
    promptInput: PromptInput,
    temperature: real,
    maxTokens: nat)

  /** The user message of the call: the prompt built from its inputs. */
  function UserMessage(call: UpstreamCall): string
  {
    BuildPrompt(call.promptInput)
  }

  datatype ResponseBody = ErrorBody(error: string, details: Option<string>) | RecipeBody(recipe: Json)

  /** Status code, the `Allow` header when set, and the JSON body. */
  datatype Response = Response(status: nat, allow: Option<string>, body: ResponseBody)

  /** The call made upstream, if any, and the response. */
  datatype Exchange = Exchange(call: Option<UpstreamCall>, response: Response)

  const SystemPrompt: string := "You are a precise barista recipe generator. Return only valid JSON."

  predicate Filled(field: Option<string>)
  {
    field.Some? && field.value != ""
  }

  /** `req.body || {}`: a missing body has no fields. */
  function BodyOrEmpty(body: Option<RequestBody>): (b: RequestBody)
    ensures body.Some? ==> b == body.value
    ensures body.None? ==> b == RequestBody(None, None, None, None, None, None, None)
    ensures body.None? ==> !FieldsPresent(b)
  {
    match body
    case Some(b) => b
    case None => RequestBody(None, None, None, None, None, None, None)
  }

  /** The required-fields guard: machine, grinder, milk capability, bean
      type, roast and the drink's name must all be truthy. */
  predicate FieldsPresent(b: RequestBody)
    ensures FieldsPresent(b) ==> b.drink.Some? && DrinkNameText(b.drink) == b.drink.value.name
  {
    && Filled(b.machine) && Filled(b.grinder) && Filled(b.milkCapability)
    && Filled(b.beanType) && Filled(b.roast)
    && b.drink.Some? && b.drink.value.name != ""
  }

  /** The arguments of `buildPrompt`, with `latteArt: Boolean(latteArt)`. */
  function PromptInputOf(b: RequestBody): (input: PromptInput)
    requires FieldsPresent(b)
    ensures input.machine == b.machine.value && input.grinder == b.grinder.value
    ensures input.milkCapability == b.milkCapability.value && input.beanType == b.beanType.value
    ensures input.roast == b.roast.value
    ensures input.machine != "" && input.grinder != "" && input.milkCapability != ""
    ensures input.beanType != "" && input.roast != ""
    ensures input.drink == b.drink && DrinkNameText(input.drink) == b.drink.value.name
    ensures input.latteArt == Truthy(b.latteArt)
  {
    PromptInput(b.machine.value, b.grinder.value, b.milkCapability.value, b.beanType.value,
                b.roast.value, Truthy(b.latteArt), b.drink)
  }

  function CallFor(input: PromptInput, apiKey: string): UpstreamCall
  {
    UpstreamCall("gpt-4o-mini", "Bearer " + apiKey, SystemPrompt, input, 0.7, 900)
  }

  /** `Array.isArray(parsed) ? parsed?.[0] : parsed`: an array stands for its
      first element, and an empty one for nothing. */
  function SelectRecipe(parsed: Json): (recipe: Option<Json>)
    ensures !parsed.JArray? ==> recipe == Some(parsed)
    ensures parsed.JArray? && parsed.elems != [] ==> recipe == Some(parsed.elems[0])
    ensures parsed.JArray? && parsed.elems == [] ==> recipe.None?
  {
    match parsed
    case JArray(elems) => if elems == [] then None else Some(elems[0])
    case _ => Some(parsed)
  }

  /** `!recipe || !recipe.steps || !recipe.name`, negated: the recipe, its
      steps and its name are all truthy. */
  predicate Accepted(recipe: Option<Json>)
    ensures Accepted(recipe) ==>
              recipe.Some? && recipe.value.JObject? && "steps" in recipe.value.fields && "name" in recipe.value.fields
  {
    Truthy(recipe) && Truthy(Property(recipe.value, "steps")) && Truthy(Property(recipe.value, "name"))
  }

  function ErrorResponse(status: nat, error: string): Response
  {
    Response(status, None, ErrorBody(error, None))
  }

  /** The response to an upstream reply. `JSON.parse("")` always fails, so
      empty content is invalid whatever `parse` says. */
  function ReplyResponse(reply: UpstreamReply, parse: string -> ParseResult): (r: Response)
    ensures r.status == 200 || r.status == 500
    ensures r.allow.None?
    ensures r.status == 200 <==> r.body.RecipeBody?
  {
    match reply
    case Threw => ErrorResponse(500, "Failed to generate recipe. Please try again.")
    case NotOk(errorText) => Response(500, None, ErrorBody("OpenAI API error", Some(errorText)))
    case Completed(content) =>
      var parsed := if content == "" then ParseFail else parse(content);
      match parsed
      case ParseFail => ErrorResponse(500, "Invalid JSON from model")
      case Parsed(doc) =>
        var recipe := SelectRecipe(doc);
        if Accepted(recipe) then Response(200, None, RecipeBody(recipe.value))
        else ErrorResponse(500, "No recipes returned")
  }

  /** The handler: the method, the credential and the required fields are
      checked in that order, each failure answered without calling upstream;
      otherwise the prompt is built, the call made and its reply answered. */
  function Handle(req: Request, apiKey: string, reply: UpstreamReply, parse: string -> ParseResult): (e: Exchange)
    ensures e.response.status in {200, 400, 405, 500}
    ensures e.response.allow.Some? <==> e.response.status == 405
    ensures e.response.status == 200 <==> e.response.body.RecipeBody?
  {
    if req.httpMethod != "POST" then
      Exchange(None, Response(405, Some("POST"), ErrorBody("Method not allowed", None)))
    else if apiKey == "" then
      Exchange(None, ErrorResponse(500, "Missing OPENAI_API_KEY"))
    else
      var b := BodyOrEmpty(req.body);
      if !FieldsPresent(b) then Exchange(None, ErrorResponse(400, "Missing required fields"))
      else
        Exchange(Some(CallFor(PromptInputOf(b), apiKey)), ReplyResponse(reply, parse))
  }

  /** Any method but POST gets 405 with `Allow: POST`, whatever the
      credential, body or upstream would have been, and nothing is called. */
  lemma {:induction false} MethodCheckedFirst(req: Request, apiKey: string, reply: UpstreamReply, parse: string -> ParseResult)
    requires req.httpMethod != "POST"
    ensures Handle(req, apiKey, reply, parse)
            == Exchange(None, Response(405, Some("POST"), ErrorBody("Method not allowed", None)))
  {
  }

  /** Without a credential every POST gets 500 "Missing OPENAI_API_KEY",
      before its fields are looked at. */
  lemma {:induction false} CredentialCheckedSecond(req: Request, reply: UpstreamReply, parse: string -> ParseResult)
    requires req.httpMethod == "POST"
    ensures Handle(req, "", reply, parse) == Exchange(None, ErrorResponse(500, "Missing OPENAI_API_KEY"))
  {
  }

  /** A POST with a credential but a falsy required field (or no body) gets
      400 "Missing required fields", and no prompt reaches upstream. */
  lemma {:induction false} MissingFieldsRejected(req: Request, apiKey: string, reply: UpstreamReply, parse: string -> ParseResult)
    requires req.httpMethod == "POST" && apiKey != ""
    requires req.body.None? || !FieldsPresent(req.body.value)
    ensures Handle(req, apiKey, reply, parse) == Exchange(None, ErrorResponse(400, "Missing required fields"))
  {
  }

  /** The upstream call is made exactly when the three guards pass, and then
      carries the credential as a bearer token and the prompt `buildPrompt`
      makes of the request. */
  lemma {:induction false} CallExactlyWhenGuardsPass(req: Request, apiKey: string, reply: UpstreamReply, parse: string -> ParseResult)
    ensures var e := Handle(req, apiKey, reply, parse);
      && (e.call.Some? <==> req.httpMethod == "POST" && apiKey != "" && req.body.Some? && FieldsPresent(req.body.value))
      && (e.call.Some? ==>
            && e.call.value.promptInput == PromptInputOf(req.body.value)
            && e.call.value.authorization == "Bearer " + apiKey
            && e.call.value.model == "gpt-4o-mini")
  {
  }

  /** A request that passes the guards. */
  predicate Admitted(req: Request, apiKey: string)
  {
    req.httpMethod == "POST" && apiKey != "" && req.body.Some? && FieldsPresent(req.body.value)
  }

  /** A not-ok upstream response gives 500 "OpenAI API error" with the
      upstream body text as details; there is no second call. */
  lemma {:induction false} UpstreamErrorPassedOn(req: Request, apiKey: string, errorText: string, parse: string -> ParseResult)
    requires Admitted(req, apiKey)
    ensures Handle(req, apiKey, NotOk(errorText), parse).response
            == Response(500, None, ErrorBody("OpenAI API error", Some(errorText)))
  {
  }

  /** Model output that does not parse, including the empty content of a
      reply without choices, gives 500 "Invalid JSON from model". */
  lemma {:induction false} UnparsableOutputRejected(req: Request, apiKey: string, content: string, parse: string -> ParseResult)
    requires Admitted(req, apiKey)
    requires content == "" || parse(content) == ParseFail
    ensures Handle(req, apiKey, Completed(content), parse).response == ErrorResponse(500, "Invalid JSON from model")
  {
  }

  /** The response is 200 exactly when the model's output parses to a
      recipe (an array's first element) that is truthy with truthy `steps`
      and `name`; the recipe is then returned as parsed, unchanged. */
  lemma {:induction false} AcceptedExactly(req: Request, apiKey: string, content: string, parse: string -> ParseResult)
    requires Admitted(req, apiKey)
    ensures var r := Handle(req, apiKey, Completed(content), parse).response;
      && (r.status == 200 <==>
            content != "" && parse(content).Parsed? && Accepted(SelectRecipe(parse(content).doc)))
      && (r.status == 200 ==> r.body == RecipeBody(SelectRecipe(parse(content).doc).value))
      && (content != "" && parse(content).Parsed? && !Accepted(SelectRecipe(parse(content).doc)) ==>
            r == ErrorResponse(500, "No recipes returned"))
  {
  }

  /** An array answer is judged by its first element; an empty array is "No
      recipes returned". */
  lemma {:induction false} ArrayStandsForFirstElement(elems: seq<Json>)
    ensures Accepted(SelectRecipe(JArray(elems))) <==> elems != [] && Accepted(Some(elems[0]))
  {
  }

  /** An object with a non-empty name and an empty `steps` array is
      accepted: an empty array is truthy. */
  lemma {:induction false} EmptyStepsAccepted(fields: map<string, Json>)
    requires "name" in fields && fields["name"].JString? && fields["name"].s != ""
    requires "steps" in fields && fields["steps"] == JArray([])
    ensures Accepted(SelectRecipe(JObject(fields)))
  {
  }
}

=== FILE: recipe_prompt.dfy ===
/** `buildPrompt` (api/recipes.js): the user message sent to the language
    model, a fixed template with the request's values filled in and one
    decision, whether latte art is requested. */
module RecipePrompt {
  import opened JsValues
  import opened Text

  /** The values `buildPrompt` receives: the equipment and bean texts, the
      latte-art flag (already made boolean) and the selected drink, if any. */
  datatype PromptInput = PromptInput(
    machine: string,
    grinder: string,
    milkCapability: string,
    beanType: string,
    roast: string,
    latteArt: bool,
    drink: Option<Drink>)

  /** `latteArt && drink?.milkOz > 0 && milkCapability !== "no milk"`: a
      missing drink or milk volume compares as not positive. */
  predicate LatteArtRequested(input: PromptInput)
    ensures LatteArtRequested(input) ==> Milk(input.drink).Some? && Milk(input.drink).value > 0.0
    ensures !input.latteArt || input.milkCapability == "no milk" ==> !LatteArtRequested(input)
  {
    && input.latteArt
    && input.drink.Some? && input.drink.value.milkOz.Some? && input.drink.value.milkOz.value > 0.0
    && input.milkCapability != "no milk"
  }

  /** `drink?.name || "Unknown"`. */
  function DrinkNameText(drink: Option<Drink>): (t: string)
    ensures drink.None? || drink.value.name == "" ==> t == "Unknown"
    ensures drink.Some? && drink.value.name != "" ==> t == drink.value.name
  {
    if drink.Some? && drink.value.name != "" then drink.value.name else "Unknown"
  }

  /** `volume ?? "-"`: only a missing volume becomes "-"; a present one,
      zero included, is written as a number. */
  function VolumeText(volume: Option<real>): (t: string)
    ensures volume.None? <==> t == "-"
    ensures volume.Some? ==> t == DecimalText(volume.value)
  {
    match volume
    case None => "-"
    case Some(v) => DecimalText(v)
  }

  /** A volume of 0 is written "0", not "-". */
  lemma {:induction false} ZeroVolumeIsWritten()
    ensures VolumeText(Some(0.0)) == "0"
  {
    DecimalTextOfNat(0);
    assert NatText(0) == "0";
  }

  function Espresso(drink: Option<Drink>): Option<real>
  {
    if drink.Some? then drink.value.espressoOz else None
  }

  function Milk(drink: Option<Drink>): Option<real>
  {
    if drink.Some? then drink.value.milkOz else None
  }

  function Water(drink: Option<Drink>): Option<real>
  {
    if drink.Some? then drink.value.waterOz else None
  }

  /** The template up to the latte-art line. */
  function PromptHead(input: PromptInput): string
  {
    "Create a single espresso drink recipe based on the inputs below.\n\nInputs:\n- Machine: " + input.machine
    + "\n- Grinder: " + input.grinder
    + "\n- Milk capability: " + input.milkCapability
    + "\n- Bean type: " + input.beanType
    + "\n- Roast: " + input.roast
    + "\n- Selected drink: " + DrinkNameText(input.drink)
    + "\n- Drink volumes (liquid): espresso " + VolumeText(Espresso(input.drink))
    + " oz, milk " + VolumeText(Milk(input.drink))
    + " fl oz, water " + VolumeText(Water(input.drink)) + " fl oz\n"
  }

  const LatteArtYes: string := "- Latte art requested: yes\n"
  const LatteArtNo: string := "- Latte art requested: no\n"

  /** The template after the latte-art line: the output rules. */
  const PromptRules: string :=
    "\nRules:\n"
    + "- Output ONLY JSON (no markdown) as a single object.\n"
    + "- The object must include: name, summary, espressoOz, milkOz, waterOz, shotType, steps (array of strings).\n"
    + "- Use oz/fl oz for liquids in both the summary and steps. Example: \"2 oz espresso\" or \"6 fl oz milk\".\n"
    + "- If milkOz is 0, do not include any milk steaming steps or latte art steps.\n"
    + "- If milk is used and milkCapability is \"steam wand\", say \"steam to create microfoam\" (avoid the word \"froth\") and include timing guidance (seconds) for steaming with the wand.\n"
    + "- If milk is used and milkCapability is \"auto milk\", use automatic milk program steps only (no manual steaming).\n"
    + "- If the machine is \"DeLonghi Magnifica Evo (non-LatteCrema)\", do NOT mention grinding. Choose single vs double shot based on espresso volume (<=1.5 oz = single, >1.5 oz = double). Include specific brew instructions for the super-auto.\n"
    + "- Keep steps concise, sequential, and practical.\n"
    + "- If latte art is requested, add steps that cover pitcher technique, stretching/texturing, when to start pouring, swirling/tapping to integrate microfoam, and the art pour. Only include latte art steps when requested.\n"

  /** `buildPrompt`. */
  function BuildPrompt(input: PromptInput): (p: string)
    ensures PromptHead(input) <= p
  {
    PromptHead(input) + (if LatteArtRequested(input) then LatteArtYes else LatteArtNo) + PromptRules
  }

  predicate EndsWith(s: string, tail: string)
  {
    |tail| <= |s| && s[|s| - |tail|..] == tail
  }

  /** Two lines whose lengths differ by one and where dropping the first
      character of the longer does not give the shorter: a text built with
      one of them never ends with the other followed by the same tail. */
  lemma {:induction false} TailsDiffer(head: string, x: string, y: string, rules: string)
    requires |x| == |y| + 1 && x[1..] != y
    ensures EndsWith(head + x + rules, x + rules) && !EndsWith(head + x + rules, y + rules)
    ensures EndsWith(head + y + rules, y + rules) && !EndsWith(head + y + rules, x + rules)
  {
    var p, q := head + x + rules, head + y + rules;
    assert p[|p| - |x + rules|..] == x + rules;
    assert q[|q| - |y + rules|..] == y + rules;
    assert p[|p| - |y + rules|..] == x[1..] + rules;
    assert (x + rules)[1..] == x[1..] + rules;
    assert x[1..] + rules != y + rules by {
      assert (x[1..] + rules)[..|y|] == x[1..];
      assert (y + rules)[..|y|] == y;
    }
    if |head| > 0 {
      var c := head[|head| - 1];
      assert q[|q| - |x + rules|..] == [c] + y + rules;
      assert ([c] + y + rules)[1..] == y + rules;
    }
  }

  /** The latte-art gate: the prompt ends with the "yes" line and the rules
      exactly when latte art is asked for, the drink has a positive milk
      volume and the setup has milk; if any of the three fails it ends with
      the "no" line instead. */
  lemma {:induction false} LatteArtGate(input: PromptInput)
    ensures EndsWith(BuildPrompt(input), LatteArtYes + PromptRules) <==> LatteArtRequested(input)
    ensures EndsWith(BuildPrompt(input), LatteArtNo + PromptRules) <==> !LatteArtRequested(input)
  {
    LatteArtLinesDiffer();
    TailsDiffer(PromptHead(input), LatteArtYes, LatteArtNo, PromptRules);
  }

  lemma LatteArtLinesDiffer()
    ensures |LatteArtYes| == |LatteArtNo| + 1 && LatteArtYes[1..] != LatteArtNo
  {
    assert LatteArtYes[1..][0] == ' ' && LatteArtNo[0] == '-';
  }
}

=== FILE: recipe_summary.dfy ===
/** The numbers `renderRecipe` (app.js) shows above a recipe: the dose read
    from the request's bean type, the yield from the espresso volume, their
    ratio, and the shot time found in the steps with the regular expression
    /(\d+)\s*(?:s|sec|seconds)/i. */
module RecipeSummary {
  import opened JsValues
  import opened Text
  import opened BeanType

  const FallbackDose: real := 18.0
  const FallbackTime: nat := 28
  /** Grams of espresso per fluid ounce. */
  const GramsPerOz: real := 30.0

  predicate IsS(c: char)
  {
    c == 's' || c == 'S'
  }

  /** The seconds of a match starting exactly at `i`; only a digit can
      start one. */
  function SecondsMatchAt(s: string, i: nat): (r: Option<nat>)
    requires i <= |s|
    ensures r.Some? ==> i < |s| && IsDigit(s[i])
    ensures r.Some? ==> exists m :: i < m < |s| && IsS(s[m])
  {
    if i < |s| && IsDigit(s[i]) then SecondsFromDigit(s, i) else None
  }

  /** The match at a digit. Every alternative of `(?:s|sec|seconds)` begins
      with `s`, so the pattern matches where the greedy digits and spaces are
      followed by `s` or `S`; giving back a digit or a space leaves a digit or
      a space where an `s` is needed, so backtracking adds no match. */
  function SecondsFromDigit(s: string, i: nat): (r: Option<nat>)
    requires i < |s| && IsDigit(s[i])
    ensures r.Some? ==> exists m :: i < m < |s| && IsS(s[m])
  {
    var j := i + Span(s, i, IsDigit);
    var m := j + Span(s, j, IsSpace);
    if m < |s| && IsS(s[m]) then Some(DigitsValue(s[i..j])) else None
  }

  /** The leftmost match at or after `i`. */
  function FirstSecondsFrom(s: string, i: nat): Option<nat>
    requires i <= |s|
    decreases |s| - i
  {
    if i == |s| then None
    else if SecondsMatchAt(s, i).Some? then SecondsMatchAt(s, i)
    else FirstSecondsFrom(s, i + 1)
  }

  /** `step.match(...)`, reduced to its first group's number. */
  function StepSeconds(step: string): (r: Option<nat>)
    ensures r.Some? ==> exists j :: 0 <= j < |step| && IsDigit(step[j])
    ensures r.Some? ==> exists j, m :: 0 <= j < m < |step| && IsDigit(step[j]) && IsS(step[m])
  {
    FirstSecondsIsLeftmost(step, 0);
    FirstSecondsFrom(step, 0)
  }

  /** `FirstSecondsFrom` finds the leftmost match: when it finds one, it is
      the match at some position with no match before it; when it finds
      none, no position from `i` on starts a match. */
  lemma {:induction false} FirstSecondsIsLeftmost(s: string, i: nat)
    requires i <= |s|
    ensures FirstSecondsFrom(s, i).Some? ==>
              exists j :: i <= j < |s| && SecondsMatchAt(s, j) == FirstSecondsFrom(s, i)
                          && forall k :: i <= k < j ==> SecondsMatchAt(s, k).None?
    ensures FirstSecondsFrom(s, i).None? ==> forall k :: i <= k < |s| ==> SecondsMatchAt(s, k).None?
    decreases |s| - i
  {
    if i < |s| && SecondsMatchAt(s, i).None? {
      FirstSecondsIsLeftmost(s, i + 1);
      if FirstSecondsFrom(s, i + 1).Some? {
        var j :| i + 1 <= j < |s| && SecondsMatchAt(s, j) == FirstSecondsFrom(s, i + 1)
                 && forall k :: i + 1 <= k < j ==> SecondsMatchAt(s, k).None?;
        assert forall k :: i <= k < j ==> SecondsMatchAt(s, k).None?;
      }
    }
  }

  /** `recipe.steps?.map(...).find(Boolean)` and `Number(timeSeconds[1])`:
      the seconds of the first step that mentions a time; 28 when none does
      (an absent steps list is the empty one). A mentioned "0s" is kept: the
      test is on the match, not on the number. */
  function TimeValue(steps: seq<string>): (t: nat)
    ensures (forall k :: 0 <= k < |steps| ==> StepSeconds(steps[k]).None?) ==> t == FallbackTime
    ensures steps != [] && StepSeconds(steps[0]).Some? ==> t == StepSeconds(steps[0]).value
  {
    if steps == [] then FallbackTime
    else if StepSeconds(steps[0]).Some? then StepSeconds(steps[0]).value
    else TimeValue(steps[1..])
  }

  /** The time is the seconds of the first step that mentions one, wherever
      that step stands in the list. */
  lemma {:induction false} TimeValueFirstMention(steps: seq<string>, k: nat)
    requires k < |steps| && StepSeconds(steps[k]).Some?
    requires forall j :: 0 <= j < k ==> StepSeconds(steps[j]).None?
    ensures TimeValue(steps) == StepSeconds(steps[k]).value
  {
    if k > 0 {
      assert StepSeconds(steps[0]).None?;
      assert steps[1..][k - 1] == steps[k];
      forall j | 0 <= j < k - 1
        ensures StepSeconds(steps[1..][j]).None?
      {
        assert steps[1..][j] == steps[j + 1];
      }
      TimeValueFirstMention(steps[1..], k - 1);
    }
  }

  /** The numbers of the summary. The yield and ratio are numbers as the
      page computes them, so an infinite espresso volume gives an infinite
      yield and ratio. */
  datatype Summary = Summary(dose: real, yieldGrams: JsNumber, ratio: JsNumber, timeSeconds: nat)

  /** `parseDoseFromBeanType(beanType) || 18`: no dose, or a dose of 0, gives 18. */
  function SummaryDose(beanType: string): (dose: real)
    ensures dose > 0.0
    ensures ParseDoseFromBeanType(beanType).None? ==> dose == FallbackDose
    ensures ParseDoseFromBeanType(beanType) == Some(0.0) ==> dose == FallbackDose
    ensures ParseDoseFromBeanType(beanType).Some? && ParseDoseFromBeanType(beanType).value != 0.0 ==>
              dose == ParseDoseFromBeanType(beanType).value
  {
    match ParseDoseFromBeanType(beanType)
    case None => FallbackDose
    case Some(v) => if v == 0.0 then FallbackDose else v
  }

  /** `recipe.espressoOz ?? drink?.espressoOz ?? 0`, after `Number(...)`: the
      recipe's volume (already converted) when present, else the drink's,
      else 0. */
  function EspressoOz(recipeOz: Option<JsNumber>, drinkOz: Option<real>): (n: JsNumber)
    ensures recipeOz.Some? ==> n == recipeOz.value
    ensures recipeOz.None? && drinkOz.Some? ==> n == Finite(drinkOz.value)
    ensures recipeOz.None? && drinkOz.None? ==> n == Finite(0.0)
  {
    match recipeOz
    case Some(n) => n
    case None => match drinkOz
      case Some(v) => Finite(v)
      case None => Finite(0.0)
  }

  /** The summary arithmetic of `renderRecipe`. The yield is 30 g per ounce
      of a positive espresso volume, and twice the dose otherwise (zero,
      negative, NaN or minus infinity), which pins the ratio at exactly 2;
      both are positive whenever they are finite. */
  function DeriveSummary(beanType: string, espressoOz: JsNumber, steps: seq<string>): (s: Summary)
    ensures s.dose == SummaryDose(beanType)
    ensures s.timeSeconds == TimeValue(steps)
    ensures espressoOz.Finite? && espressoOz.value > 0.0 ==>
              s.yieldGrams == Finite(espressoOz.value * GramsPerOz)
              && s.ratio == Finite(espressoOz.value * GramsPerOz / s.dose)
    ensures !(espressoOz.Finite? && espressoOz.value > 0.0) && !espressoOz.PosInfinity? ==>
              s.yieldGrams == Finite(2.0 * s.dose) && s.ratio == Finite(2.0)
    ensures espressoOz.PosInfinity? ==> s.yieldGrams == PosInfinity && s.ratio == PosInfinity
    ensures s.yieldGrams.Finite? ==> s.yieldGrams.value > 0.0 && s.ratio.Finite? && s.ratio.value > 0.0
  {
    var dose := SummaryDose(beanType);
    var yieldGrams := match espressoOz
      case Finite(v) => if v > 0.0 then Finite(v * GramsPerOz) else Finite(dose * 2.0)
      case PosInfinity => PosInfinity
      case _ => Finite(dose * 2.0);
    var ratio := match yieldGrams
      case Finite(y) => Finite(y / dose)
      case _ => PosInfinity;
    DoubleOverItself(dose);
    PositiveQuotient(dose * 2.0, dose);
    PositiveQuotient(if espressoOz.Finite? then espressoOz.value * GramsPerOz else 0.0, dose);
    Summary(dose, yieldGrams, ratio, TimeValue(steps))
  }

  lemma DoubleOverItself(x: real)
    ensures x > 0.0 ==> (x * 2.0) / x == 2.0
  {
  }

  lemma PositiveQuotient(y: real, x: real)
    ensures y > 0.0 && x > 0.0 ==> y / x > 0.0
  {
  }

  /** Together with `getRecipeValues`: a House blend bean type with a basket
      of `n` grams gives a dose of `n` (18 for `n` = 0). */
  lemma {:induction false} HouseBlendDose(n: nat)
    ensures SummaryDose(HouseBlend(n)) == if n == 0 then FallbackDose else n as real
  {
    HouseBlendRoundTrip(n);
  }

  /** Positions without a digit cannot start a match. */
  lemma {:induction false} SkipToDigits(s: string, i: nat, j: nat)
    requires i <= j <= |s|
    requires forall k :: i <= k < j ==> !IsDigit(s[k])
    ensures FirstSecondsFrom(s, i) == FirstSecondsFrom(s, j)
    decreases j - i
  {
    if i < j {
      assert SecondsMatchAt(s, i).None?;
      SkipToDigits(s, i + 1, j);
    }
  }

  /** A run of `L` digits at `i`, then `G` white-space characters, then
      `s` or `S`, is a match worth the digits' value. */
  lemma {:induction false} MatchAtRun(s: string, i: nat, L: nat, G: nat)
    requires 0 < L && i + L + G < |s|
    requires forall k :: i <= k < i + L ==> IsDigit(s[k])
    requires forall k :: i + L <= k < i + L + G ==> IsSpace(s[k])
    requires IsS(s[i + L + G])
    ensures SecondsMatchAt(s, i) == Some(DigitsValue(s[i..i + L]))
    ensures FirstSecondsFrom(s, i) == SecondsMatchAt(s, i)
  {
    RunLengths(s, i, L, G);
    assert SecondsFromDigit(s, i) == Some(DigitsValue(s[i..i + L]));
    assert SecondsMatchAt(s, i) == SecondsFromDigit(s, i);
  }

  /** The greedy runs of that match: `L` digits, then `G` spaces. */
  lemma {:induction false} RunLengths(s: string, i: nat, L: nat, G: nat)
    requires 0 < L && i + L + G < |s|
    requires forall k :: i <= k < i + L ==> IsDigit(s[k])
    requires forall k :: i + L <= k < i + L + G ==> IsSpace(s[k])
    requires IsS(s[i + L + G])
    ensures Span(s, i, IsDigit) == L && Span(s, i + L, IsSpace) == G
  {
    assert !IsSpace(s[i + L + G]) && !IsDigit(s[i + L + G]);
    if G > 0 {
      assert IsSpace(s[i + L]);
      assert !IsDigit(s[i + L]);
    }
    SpanIsUnique(s, i, IsDigit, L);
    SpanIsUnique(s, i + L, IsSpace, G);
  }

  /** A step reading "<text without digits><n><white space>s<anything>"
      (so also "… n sec" and "… n seconds") gives `n` seconds. */
  lemma {:induction false} StepSecondsRoundTrip(prefix: string, n: nat, gap: string, rest: string)
    requires forall k :: 0 <= k < |prefix| ==> !IsDigit(prefix[k])
    requires forall k :: 0 <= k < |gap| ==> IsSpace(gap[k])
    requires rest != [] && IsS(rest[0])
    ensures StepSeconds(prefix + NatText(n) + gap + rest) == Some(n)
  {
    SecondsInParts(prefix, NatText(n), gap, rest);
  }

  /** The same for any non-empty run of digits: its value is read. */
  lemma {:induction false} SecondsInParts(prefix: string, digits: string, gap: string, rest: string)
    requires forall k :: 0 <= k < |prefix| ==> !IsDigit(prefix[k])
    requires digits != [] && AllDigits(digits)
    requires forall k :: 0 <= k < |gap| ==> IsSpace(gap[k])
    requires rest != [] && IsS(rest[0])
    ensures StepSeconds(prefix + digits + gap + rest) == Some(DigitsValue(digits))
  {
    var s := prefix + digits + gap + rest;
    var P, L, G := |prefix|, |digits|, |gap|;
    PartsAt(prefix, digits, gap, rest);
    InClassAt(s, 0, prefix, NotDigit);
    InClassAt(s, P, digits, IsDigit);
    InClassAt(s, P + L, gap, IsSpace);
    SecondsAfter(s, P, L, G);
  }

  predicate NotDigit(c: char)
  {
    !IsDigit(c)
  }

  /** Text without digits up to `P`, then `L` digits, `G` spaces and an `s`:
      the step's seconds are those digits. */
  lemma {:induction false} SecondsAfter(s: string, P: nat, L: nat, G: nat)
    requires 0 < L && P + L + G < |s|
    requires forall k :: 0 <= k < P ==> NotDigit(s[k])
    requires forall k :: P <= k < P + L ==> IsDigit(s[k])
    requires forall k :: P + L <= k < P + L + G ==> IsSpace(s[k])
    requires IsS(s[P + L + G])
    ensures StepSeconds(s) == Some(DigitsValue(s[P..P + L]))
  {
    SkipToDigits(s, 0, P);
    MatchAtRun(s, P, L, G);
  }

  /** Where the four parts sit in their concatenation. */
  lemma PartsAt(prefix: string, digits: string, gap: string, rest: string)
    requires rest != []
    ensures var s := prefix + digits + gap + rest;
      var P, L, G := |prefix|, |digits|, |gap|;
      && P + L + G < |s|
      && s[..P] == prefix && s[P..P + L] == digits && s[P + L..P + L + G] == gap
      && s[P + L + G] == rest[0]
  {
    var s := prefix + digits + gap + rest;
    var P, L, G := |prefix|, |digits|, |gap|;
    assert s[..P] == prefix;
    assert s[P..P + L] == digits;
    assert s[P + L..P + L + G] == gap;
  }

  /** A slice all in a class puts every covered position in the class. */
  lemma InClassAt(s: string, i: nat, t: string, inClass: char -> bool)
    requires i + |t| <= |s| && s[i..i + |t|] == t
    requires forall k :: 0 <= k < |t| ==> inClass(t[k])
    ensures forall k :: i <= k < i + |t| ==> inClass(s[k])
  {
    forall k | i <= k < i + |t|
      ensures inClass(s[k])
    {
      assert s[k] == t[k - i];
    }
  }
}

=== FILE: screen.dfy ===
/** The page state the recipe screen keeps between events (app.js): the
    drink list loaded by "Generate drinks", the machine picker with its
    `machineModelTouched` flag, and the progress dots of the setup sections. */
module Screen {
  import opened JsValues
  import opened Equipment
  import Brewing

  /** The messages of the drinks status line. */
  datatype DrinksStatus = PickSetup | Curating | NoMatch | PickDrink | LoadFailed

  function DrinksStatusText(s: DrinksStatus): string
  {
    match s
    case PickSetup => "Please pick your equipment setup."
    case Curating => "Curating your drink lineup..."
    case NoMatch => "No drinks match that setup." + " Try enabling milk."
    case PickDrink => "Pick a drink to generate the full recipe."
    case LoadFailed => "Unable to load drinks. Please try again."
  }

  /** The five messages differ, so the status line tells every outcome of
      "Generate drinks" apart. */
  lemma StatusTextsDiffer(a: DrinksStatus, b: DrinksStatus)
    ensures a != b ==> DrinksStatusText(a) != DrinksStatusText(b)
  {
    var pickSetup, curating, noMatch := DrinksStatusText(PickSetup), DrinksStatusText(Curating), DrinksStatusText(NoMatch);
    var pickDrink, loadFailed := DrinksStatusText(PickDrink), DrinksStatusText(LoadFailed);
    assert pickSetup[0] == 'P' && pickSetup[1] == 'l';
    assert curating[0] == 'C';
    assert noMatch[0] == 'N';
    assert pickDrink[0] == 'P' && pickDrink[1] == 'i';
    assert loadFailed[0] == 'U';
  }

  /** The guard of `handleGenerateDrinks`: the three equipment values must
      be non-empty. */
  predicate EquipmentPicked(values: RecipeValues)
  {
    values.machine != "" && values.grinder != "" && values.milkCapability != ""
  }

  /** `getRecipeValues` always fills machine, grinder and milk capability,
      so the "pick your equipment" message is never shown for a form read
      by it. */
  lemma {:induction false} RecipeValuesAlwaysPicked(form: RecipeForm)
    ensures EquipmentPicked(GetRecipeValues(form))
  {
    var v := GetRecipeValues(form);
    assert v.machine != "";
    assert IsGrinderLabel(v.grinder);
    assert v.milkCapability in {"steam wand", "auto milk", "no milk"};
  }

  /** The outcome of a drinks load: the status shown and the drinks
      rendered, for a fetched list (`None` when the request or its decoding
      failed). */
  function LoadOutcome(milkCapability: string, fetched: Option<seq<Drink>>): (r: (DrinksStatus, seq<Drink>))
    ensures fetched.None? ==> r == (LoadFailed, [])
    ensures fetched.Some? ==> r.1 == VisibleDrinks(fetched.value, milkCapability)
    ensures fetched.Some? ==> (r.0 == NoMatch <==> r.1 == []) && (r.0 == PickDrink <==> r.1 != [])
  {
    match fetched
    case None => (LoadFailed, [])
    case Some(drinks) =>
      var filtered := VisibleDrinks(drinks, milkCapability);
      if filtered == [] then (NoMatch, []) else (PickDrink, filtered)
  }

  /** With "no milk" a list with only milk drinks shows the "try enabling
      milk" message; with milk any non-empty list is shown whole. */
  lemma {:induction false} NoMatchOnlyWithoutMilk(milkCapability: string, drinks: seq<Drink>)
    ensures milkCapability != "no milk" && drinks != [] ==>
              LoadOutcome(milkCapability, Some(drinks)) == (PickDrink, drinks)
    ensures milkCapability == "no milk" && drinks != [] && (forall k :: 0 <= k < |drinks| ==> drinks[k].milkRequired) ==>
              LoadOutcome(milkCapability, Some(drinks)).0 == NoMatch
  {
    if forall k :: 0 <= k < |drinks| ==> drinks[k].milkRequired {
      AllMilkDrinksDropped(drinks);
    }
  }

  /** The drink list of the recipe screen. */
  class DrinkList {
    /** `availableDrinks`. */
    var availableDrinks: seq<Drink>
    /** `activeDrinkId`. */
    var activeDrinkId: Option<string>
    /** The drinks rendered in the grid. */
    var shown: seq<Drink>
    var status: DrinksStatus

    constructor ()
      ensures availableDrinks == [] && activeDrinkId.None? && shown == [] && status == PickSetup
    {
      availableDrinks := [];
      activeDrinkId := None;
      shown := [];
      status := PickSetup;
    }

    /** `handleGenerateDrinks`, with the result of `fetchDrinks` passed in:
        without equipment only the status changes; otherwise the grid and
        the brewing steps are cleared, and a fetched list replaces the
        available drinks, forgets the active drink and is shown filtered
        for the milk capability. A failed load keeps the old available
        drinks. */
    method GenerateDrinks(values: RecipeValues, fetched: Option<seq<Drink>>, brewing: Brewing.BrewingMode)
      modifies this, brewing
      ensures !EquipmentPicked(values) ==>
                && status == PickSetup
                && shown == old(shown) && availableDrinks == old(availableDrinks)
                && activeDrinkId == old(activeDrinkId)
                && brewing.steps == old(brewing.steps) && brewing.index == old(brewing.index)
      ensures EquipmentPicked(values) ==>
                && (status, shown) == LoadOutcome(values.milkCapability, fetched)
                && brewing.steps == [] && brewing.index == 0
                && (fetched.Some? ==> availableDrinks == fetched.value && activeDrinkId.None?)
                && (fetched.None? ==> availableDrinks == old(availableDrinks) && activeDrinkId == old(activeDrinkId))
      ensures brewing.active == old(brewing.active)
    {
      if !EquipmentPicked(values) {
        status := PickSetup;
        return;
      }
      status := Curating;
      shown := [];
      brewing.Clear();
      match fetched {
        case None =>
          status := LoadFailed;
        case Some(drinks) =>
          availableDrinks := drinks;
          activeDrinkId := None;
          var filtered := drinks;
          if values.milkCapability == "no milk" {
            filtered := WithoutMilkDrinks(drinks);
          }
          if filtered == [] {
            status := NoMatch;
            return;
          }
          shown := filtered;
          status := PickDrink;
      }
    }
  }

  /** The model a machine-type change selects: none once the user has
      picked a model (`machineModelTouched`); otherwise the type's generic
      model, or the current one for a type without a default. */
  function ModelAfterTypeChange(touched: bool, selected: string, machineType: string): (m: string)
    ensures touched ==> m == selected
    ensures !touched && machineType in MachineDefaultsByType ==> m == MachineDefaultsByType[machineType]
    ensures machineType !in MachineDefaultsByType ==> m == selected
  {
    if !touched && machineType in MachineDefaultsByType then MachineDefaultsByType[machineType] else selected
  }

  /** Each type's generic model is in the catalog with that same type, so
      an untouched picker keeps the model and the type radio consistent. */
  lemma {:induction false} GenericModelsMatchTheirType(machineType: string)
    requires machineType in MachineDefaultsByType
    ensures MachineDefaultsByType[machineType] in MachineProfiles
    ensures MachineProfiles[MachineDefaultsByType[machineType]].machineType == machineType
  {
    assert machineType == "semi-auto" || machineType == "automatic" || machineType == "super-auto";
  }

  /** The machine select and the equipment radios of the recipe form. */
  class MachinePicker {
    var selectedMachine: string
    /** `machineModelTouched`: set by the first change of the select. */
    var touched: bool
    var machineType: string
    var grinderType: string
    var milkFrothing: string

    constructor (initialMachine: string)
      ensures selectedMachine == initialMachine && !touched
      ensures machineType == "" && grinderType == "" && milkFrothing == ""
    {
      selectedMachine := initialMachine;
      touched := false;
      machineType := "";
      grinderType := "";
      milkFrothing := "";
    }

    /** The two change listeners of the select: the model is marked touched,
        and a catalog model checks the radios of its profile (an unknown one
        leaves them as they are). */
    method ChooseMachine(model: string)
      modifies this
      ensures selectedMachine == model && touched
      ensures model in MachineProfiles ==>
                && machineType == MachineProfiles[model].machineType
                && grinderType == MachineProfiles[model].grinder
                && milkFrothing == MachineProfiles[model].milk
      ensures model !in MachineProfiles ==>
                machineType == old(machineType) && grinderType == old(grinderType) && milkFrothing == old(milkFrothing)
    {
      selectedMachine := model;
      touched := true;
      if model in MachineProfiles {
        var profile := MachineProfiles[model];
        machineType := profile.machineType;
        grinderType := profile.grinder;
        milkFrothing := profile.milk;
      }
    }

    /** A machine-type radio change: the radio is checked and, until the
        user has chosen a model, the type's generic model is selected. */
    method ChooseMachineType(newType: string)
      modifies this
      ensures machineType == newType && touched == old(touched)
      ensures selectedMachine == ModelAfterTypeChange(old(touched), old(selectedMachine), newType)
      ensures grinderType == old(grinderType) && milkFrothing == old(milkFrothing)
    {
      machineType := newType;
      if !touched && newType in MachineDefaultsByType {
        selectedMachine := MachineDefaultsByType[newType];
      }
    }
  }

  /** `updateProgress`: the index of the last highlighted dot, counting
      the sections (at least one) and the open ones. */
  function ActiveDotIndex(sectionCount: nat, openCount: nat): (i: nat)
    ensures i < (if sectionCount == 0 then 1 else sectionCount)
    ensures 1 <= openCount <= sectionCount ==> i == openCount - 1
    ensures openCount == 0 ==> i == 0
    ensures openCount > sectionCount > 0 ==> i == sectionCount - 1
  {
    var total := if sectionCount == 0 then 1 else sectionCount;
    var atLeastZero := if openCount - 1 >= 0 then openCount - 1 else 0;
    if total - 1 <= atLeastZero then total - 1 else atLeastZero
  }

  /** The dot loop of `updateProgress`: dot `k` is highlighted exactly when
      `k` is at most the active index, so the dots up to the active one are
      lit and the rest are not. */
  method UpdateProgress(dots: array<bool>, sectionCount: nat, openCount: nat)
    modifies dots
    ensures forall k :: 0 <= k < dots.Length ==> dots[k] == (k <= ActiveDotIndex(sectionCount, openCount))
  {
    var activeIndex := ActiveDotIndex(sectionCount, openCount);
    var k := 0;
    while k < dots.Length
      invariant 0 <= k <= dots.Length
      invariant forall j :: 0 <= j < k ==> dots[j] == (j <= activeIndex)
    {
      dots[k] := k <= activeIndex;
      k := k + 1;
    }
  }
}

=== FILE: step_icons.dfy ===
/** `getStepIconMarkup` (app.js): the icon shown beside a recipe step, picked
    by the first keyword group the lower-cased step text mentions, or else by
    the step's position in a five-icon cycle. Icons are named, not drawn. */
module StepIcons {
  import opened JsValues
  import opened Text

  datatype StepIcon = GrindIcon | DoseIcon | TampIcon | BrewIcon | SteamIcon | PourIcon | ServeIcon | DefaultIcon

  /** The icons cycled through for steps that mention no keyword. */
  const FallbackCycle: seq<StepIcon> := [GrindIcon, DoseIcon, TampIcon, BrewIcon, PourIcon]

  predicate MentionsAny(text: string, words: seq<string>)
  {
    exists k :: 0 <= k < |words| && Contains(text, words[k])
  }

  /** `getStepIconMarkup(step, index)`, tested in the order app.js tests them. The
      index is a position in the step list, so it is never negative and the
      cycle always has an entry for it. */
  function GetStepIcon(step: string, index: nat): (icon: StepIcon)
    ensures Contains(Lower(step), "grind") ==> icon == GrindIcon
    ensures icon != DefaultIcon
  {
    var text := Lower(step);
    if Contains(text, "grind") then GrindIcon
    else if Contains(text, "dose") || Contains(text, "weigh") || Contains(text, "measure") then DoseIcon
    else if Contains(text, "tamp") then TampIcon
    else if Contains(text, "brew") || Contains(text, "pull") || Contains(text, "extract") then BrewIcon
    else if Contains(text, "steam") || Contains(text, "microfoam") then SteamIcon
    else if Contains(text, "pour") || Contains(text, "latte art") then PourIcon
    else if Contains(text, "serve") || Contains(text, "enjoy") then ServeIcon
    else
      var i := index % |FallbackCycle|;
      FallbackCycle[i]
  }

  /** The keyword groups in order of precedence, each with its icon. */
  const KeywordGroups: seq<(StepIcon, seq<string>)> := [
    (GrindIcon, ["grind"]),
    (DoseIcon, ["dose", "weigh", "measure"]),
    (TampIcon, ["tamp"]),
    (BrewIcon, ["brew", "pull", "extract"]),
    (SteamIcon, ["steam", "microfoam"]),
    (PourIcon, ["pour", "latte art"]),
    (ServeIcon, ["serve", "enjoy"])
  ]

  /** Reference reading of the classifier: the icon of the first group, in
      table order, that the text mentions. */
  function FirstMentionedGroup(text: string, groups: seq<(StepIcon, seq<string>)>): Option<StepIcon>
  {
    if groups == [] then None
    else if MentionsAny(text, groups[0].1) then Some(groups[0].0)
    else FirstMentionedGroup(text, groups[1..])
  }

  lemma MentionsOne(text: string, w: string)
    ensures MentionsAny(text, [w]) <==> Contains(text, w)
  {
    assert [w][0] == w;
  }

  lemma MentionsTwo(text: string, w1: string, w2: string)
    ensures MentionsAny(text, [w1, w2]) <==> Contains(text, w1) || Contains(text, w2)
  {
    assert [w1, w2][0] == w1 && [w1, w2][1] == w2;
  }

  lemma MentionsThree(text: string, w1: string, w2: string, w3: string)
    ensures MentionsAny(text, [w1, w2, w3]) <==> Contains(text, w1) || Contains(text, w2) || Contains(text, w3)
  {
    assert [w1, w2, w3][0] == w1 && [w1, w2, w3][1] == w2 && [w1, w2, w3][2] == w3;
  }

  /** The classifier is the precedence table: the first keyword group the
      lower-cased step mentions decides; a step with no keyword gets the
      cycle entry for its position. */
  lemma {:induction false} StepIconFollowsTable(step: string, index: nat)
    ensures GetStepIcon(step, index)
            == match FirstMentionedGroup(Lower(step), KeywordGroups)
               case Some(icon) => icon
               case None => FallbackCycle[index % 5]
  {
    var text := Lower(step);
    MentionsOne(text, "grind");
    MentionsThree(text, "dose", "weigh", "measure");
    MentionsOne(text, "tamp");
    MentionsThree(text, "brew", "pull", "extract");
    MentionsTwo(text, "steam", "microfoam");
    MentionsTwo(text, "pour", "latte art");
    MentionsTwo(text, "serve", "enjoy");
    var g0 := KeywordGroups;
    var g1 := g0[1..];
    var g2 := g1[1..];
    var g3 := g2[1..];
    var g4 := g3[1..];
    var g5 := g4[1..];
    var g6 := g5[1..];
    assert g0[0] == (GrindIcon, ["grind"]);
    assert g1[0] == (DoseIcon, ["dose", "weigh", "measure"]);
    assert g2[0] == (TampIcon, ["tamp"]);
    assert g3[0] == (BrewIcon, ["brew", "pull", "extract"]);
    assert g4[0] == (SteamIcon, ["steam", "microfoam"]);
    assert g5[0] == (PourIcon, ["pour", "latte art"]);
    assert g6 == [(ServeIcon, ["serve", "enjoy"])];
    assert g6[1..] == [];
    assert FirstMentionedGroup(text, g6) == if MentionsAny(text, g6[0].1) then Some(ServeIcon) else None;
    assert FirstMentionedGroup(text, g5)
           == if MentionsAny(text, g5[0].1) then Some(PourIcon) else FirstMentionedGroup(text, g6);
    assert FirstMentionedGroup(text, g4)
           == if MentionsAny(text, g4[0].1) then Some(SteamIcon) else FirstMentionedGroup(text, g5);
    assert FirstMentionedGroup(text, g3)
           == if MentionsAny(text, g3[0].1) then Some(BrewIcon) else FirstMentionedGroup(text, g4);
    assert FirstMentionedGroup(text, g2)
           == if MentionsAny(text, g2[0].1) then Some(TampIcon) else FirstMentionedGroup(text, g3);
    assert FirstMentionedGroup(text, g1)
           == if MentionsAny(text, g1[0].1) then Some(DoseIcon) else FirstMentionedGroup(text, g2);
  }

  /** The `|| stepIcons.default` fallback is never reached, and steps without
      keywords repeat the cycle every five positions. */
  lemma {:induction false} DefaultIconUnreachable(step: string, index: nat)
    ensures GetStepIcon(step, index) != DefaultIcon
    ensures FirstMentionedGroup(Lower(step), KeywordGroups).None? ==>
              GetStepIcon(step, index) == GetStepIcon(step, index + 5)
  {
    StepIconFollowsTable(step, index);
    StepIconFollowsTable(step, index + 5);
    assert (index + 5) % 5 == index % 5;
  }
}

=== FILE: text.dfy ===
/** Character classes, digit scanning and number rendering shared by the
    dial-in helper's string handling: the pieces of the regular expressions
    `\d`, `\s` and `/i`, `String.prototype.includes`/`toLowerCase`, and the
    JavaScript renderings of numbers (`toFixed` and template interpolation). */
module Text {

  /** `\d` in a JavaScript regular expression without the `u` flag. */
  predicate IsDigit(c: char)
  {
    '0' <= c <= '9'
  }

  /** `\s` in a JavaScript regular expression: the white-space and
      line-terminator characters of ECMAScript. */
  predicate IsSpace(c: char)
  {
    c == ' ' || c == '\t' || c == '\n' || c == '\r' || c == '\U{000B}' || c == '\U{000C}'
    || c == '\U{00A0}' || c == '\U{1680}' || ('\U{2000}' <= c <= '\U{200A}')
    || c == '\U{2028}' || c == '\U{2029}' || c == '\U{202F}' || c == '\U{205F}'
    || c == '\U{3000}' || c == '\U{FEFF}'
  }

  predicate AllDigits(d: string)
  {
    forall k :: 0 <= k < |d| ==> IsDigit(d[k])
  }

  /** Length of the longest run of characters of a class starting at `i`:
      what a greedy `\d+` or `\s*` consumes there. */
  function Span(s: string, i: nat, inClass: char -> bool): (n: nat)
    requires i <= |s|
    ensures i + n <= |s|
    ensures forall k :: i <= k < i + n ==> inClass(s[k])
    ensures i + n == |s| || !inClass(s[i + n])
    decreases |s| - i
  {
    if i < |s| && inClass(s[i]) then 1 + Span(s, i + 1, inClass) else 0
  }

  /** The run found by `Span` is the only run that is both all in the class
      and maximal. */
  lemma SpanIsUnique(s: string, i: nat, inClass: char -> bool, n: nat)
    requires i + n <= |s|
    requires forall k :: i <= k < i + n ==> inClass(s[k])
    requires i + n == |s| || !inClass(s[i + n])
    ensures Span(s, i, inClass) == n
  {
  }

  function DigitValue(c: char): (v: nat)
    requires IsDigit(c)
    ensures v < 10
  {
    c as int - '0' as int
  }

  function DigitChar(v: nat): (c: char)
    requires v < 10
    ensures IsDigit(c) && DigitValue(c) == v
  {
    ('0' as int + v) as char
  }

  /** The value of a decimal digit string, read most significant digit first
      (what `Number` gives for it). */
  function DigitsValue(d: string): nat
    requires AllDigits(d)
  {
    if d == [] then 0 else 10 * DigitsValue(d[..|d| - 1]) + DigitValue(d[|d| - 1])
  }

  function Pow10(k: nat): (p: nat)
    ensures p >= 1
  {
    if k == 0 then 1 else 10 * Pow10(k - 1)
  }

  /** The decimal rendering of a natural number, as `String(n)` gives it:
      at least one digit, no leading zero, and it reads back as `n`. */
  function NatText(n: nat): (s: string)
    ensures |s| >= 1 && AllDigits(s)
    ensures DigitsValue(s) == n
    ensures n > 0 ==> s[0] != '0'
  {
    if n < 10 then [DigitChar(n)]
    else
      var front := NatText(n / 10);
      var s := front + [DigitChar(n % 10)];
      assert s[..|s| - 1] == front;
      s
  }

  /** `n` written with exactly `width` digits, zeros in front. */
  function PaddedDigits(n: nat, width: nat): (s: string)
    ensures |s| == width && AllDigits(s)
  {
    if width == 0 then [] else PaddedDigits(n / 10, width - 1) + [DigitChar(n % 10)]
  }

  /** `x.toFixed(digits)` for a non-negative `x`: the integer nearest to
      `x * 10^digits` (the larger one on a tie), written with `digits` digits
      after the point. */
  function ToFixed(x: real, digits: nat): (s: string)
    requires x >= 0.0
    ensures |s| >= 1 && IsDigit(s[0])
  {
    var p := Pow10(digits);
    var n := RoundHalfUp(Scaled(x, p));
    if digits == 0 then NatText(n)
    else NatText(Quotient(n, p)) + "." + PaddedDigits(Remainder(n, p), digits)
  }

  function Quotient(n: nat, p: nat): nat
    requires p >= 1
  {
    n / p
  }

  function Remainder(n: nat, p: nat): nat
    requires p >= 1
  {
    n % p
  }

  function Scaled(x: real, p: nat): (y: real)
    requires x >= 0.0
    ensures y >= 0.0
  {
    x * p as real
  }

  /** The nearest integer to `y`, the larger one on a tie. */
  function RoundHalfUp(y: real): nat
    requires y >= 0.0
  {
    (y + 0.5).Floor
  }

  predicate IsIntegral(x: real)
  {
    x.Floor as real == x
  }

  /** Longest fraction considered when a number is interpolated into a string. */
  const MaxFractionDigits: nat := 20

  /** Fixed-point text of `x` with the fewest fraction digits (from `k` on)
      that render it exactly. */
  function ShortestFixed(x: real, k: nat): (s: string)
    requires x >= 0.0
    ensures |s| >= 1 && IsDigit(s[0])
    decreases MaxFractionDigits - k
  {
    if k >= MaxFractionDigits || IsIntegral(x * Pow10(k) as real) then ToFixed(x, k)
    else ShortestFixed(x, k + 1)
  }

  /** `${x}` for a number `x` of ordinary magnitude: a minus sign for a
      negative value, then the shortest exact decimal text. */
  function DecimalText(x: real): (s: string)
    ensures x >= 0.0 ==> |s| >= 1 && IsDigit(s[0])
    ensures x < 0.0 ==> |s| >= 2 && s[0] == '-' && IsDigit(s[1])
  {
    if x < 0.0 then "-" + ShortestFixed(-x, 0) else ShortestFixed(x, 0)
  }

  /** A whole number is interpolated as its plain digits. */
  lemma DecimalTextOfNat(n: nat)
    ensures DecimalText(n as real) == NatText(n)
  {
    var x := n as real;
    assert Pow10(0) == 1;
    assert x * Pow10(0) as real == x;
    assert Scaled(x, 1) == x;
    assert RoundHalfUp(x) == n;
    assert ToFixed(x, 0) == NatText(n);
    assert ShortestFixed(x, 0) == ToFixed(x, 0);
  }

  /** `toLowerCase` on the ASCII letters. */
  function LowerChar(c: char): char
  {
    if 'A' <= c <= 'Z' then (c as int + 32) as char else c
  }

  function Lower(s: string): (r: string)
    ensures |r| == |s|
    ensures forall k :: 0 <= k < |s| ==> r[k] == LowerChar(s[k])
  {
    if s == [] then [] else [LowerChar(s[0])] + Lower(s[1..])
  }

  /** `s.includes(t)`. */
  predicate Contains(s: string, t: string)
    decreases |s|
  {
    |t| <= |s| && (s[..|t|] == t || Contains(s[1..], t))
  }
}
